=== FILE: README.md ===
# A verified model of a static blog generator

The generator turns Markdown files with a `---` header into a small static site. The build script (`build.js`) does the following:

- It reads the `.md` files of `content/` and parses each header into key/value fields.
- It derives a slug from each file name.
- It sorts the posts newest first.
- It fills `templates/layout.html` once per post.
- It fills `templates/home.html` with a list of the posts.
- It copies `assets/style.css`.
- It writes everything into `dist/`.

A development-server plugin (`vite.config.js`) does the following:

- It runs the build on start unless `NODE_ENV` is `production`.
- It rebuilds and reloads the browser when a watched file changes.
- It serves `dist/` through a middleware. The middleware:
  - resolves `/`, paths without an extension and directories;
  - picks a content type from a fixed table;
  - injects the live-reload client before `</body>`.

The Dafny modules follow those pieces:

- `Wrappers` holds `Option` and `Outcome`.
- `Text` holds the JavaScript string operations the code relies on: `indexOf`, `trim`, `split`, `join`, global and first-only `replace`.
- `Frontmatter` models `parseFrontmatter`.
- `Slug` models `slugify`.
- `Content` models `scanContent`.
- `Render` models `renderPost` and `renderHome`.
- `Build` models `build` and `copyAssets`. The output directory is a class, `Build.Dist`, whose `files` map is updated write by write.
- `DevServer` models `vite.config.js`.

Some code is imperative in the source, and the model keeps it imperative:

- the header loop of `parseFrontmatter`;
- the write sequence of `build`;
- the middleware's step-by-step reassignment of `distPath`.

Each of these is a method proved equal to a specification function. The properties are then proved about that function.

Some parts of the system become parameters of the model:

- **The content directory** is its listing, in `readdirSync` order, and the text of each file.
- **The served directory** is a map from path to directory or file. A file is the text that `readFileSync(path, "utf-8")` decodes from it.
- **`marked`** is a function `markdown: string -> string`.
- **`new Date(post.date)`** is a function `dateOf: string -> Option<int>`, where `None` stands for an invalid date.

Three behaviours of the code shape the model:

- **Missing content directory.** `readdirSync` throws on a missing `content/`, so the build ends with `ContentMissing` before writing anything. It is not treated as an empty collection.
- **Assets.** `copyAssets` copies the single file `assets/style.css`. Nothing else under `assets/` is copied.
- **Missing post fields.** A post property that the header does not set is substituted as the text `undefined`.

## Model

| member | source | states |
|---|---|---|
| Text.IsSpace | build.js:25-26 | defines the characters `trim` removes, the ECMAScript whitespace and line terminators; `Trim`, `TrimShape` and `TrimPadded` state what is removed |
| Text.StartsWith | build.js:28 | defines `startsWith`; `Unquote` and `IsViteRequest` are stated with it |
| Text.EndsWith | build.js:52 | defines `endsWith`; `StripMd`, `MdNames` and `Unquote` are stated with it |
| Text.Contains | vite.config.js:59-61 | defines `includes`; `WatchedBySubstring` and `ParseLineSkips` are stated with it |
| Text.FindFrom | build.js:22 | `indexOf` from a position gives the first index at or after it where the pattern occurs, or nothing when no occurrence is left |
| Text.FindFromFirst | build.js:22 | any occurrence with no earlier one at or after the start position is the one `indexOf` returns |
| Text.Trim | build.js:25-26 | the trimmed text has no whitespace at either end |
| Text.TrimShape | build.js:25-26 | `trim` removes only whitespace, and only from the two ends: the result is a contiguous middle piece of the input |
| Text.TrimUnpadded | build.js:25-26 | text with no whitespace at either end is its own trim |
| Text.TrimPadded | build.js:25-26 | whitespace padding on both sides of an unpadded text is exactly what `trim` removes |
| Text.TrimAfterBlank | build.js:26 | the blank after a colon is removed from the value |
| Text.Split | build.js:19 | `split` gives at least one piece, and no piece contains the separator |
| Text.JoinSplit | build.js:19 | joining the pieces of a split with the same separator gives the text back |
| Text.Join | build.js:101 | defines `parts.join(sep)`; its properties are stated by `JoinAppend`, `JoinSplit` and `SplitJoin` |
| Text.SplitJoin | build.js:19 | splitting a join of pieces that do not contain a one-character separator gives the pieces back |
| Text.JoinAppend | build.js:94-101 | joining two non-empty lists is joining each, with one separator between them |
| Text.ReplaceAll | build.js:84-88 | defines a global `replace` with a literal pattern; its properties are stated by `ReplaceAllIsJoin`, `ReplaceAllAt`, `ReplaceAllHead`, `ReplaceAllSkip` and `ReplaceAllAbsent` |
| Text.ReplaceAllIsJoin | build.js:84-88 | global replacement equals splitting on the pattern and joining with the replacement, so every occurrence is replaced, leftmost first and without overlap |
| Text.FirstOccurrence | build.js:84-88 | the search for a placeholder finds the occurrence that follows a prefix free of it |
| Text.ReplaceAllAt | build.js:84-88 | an occurrence with none before it is replaced, and the scan carries on after it |
| Text.ReplaceAllHead | build.js:84-88 | text that starts with the pattern has that occurrence replaced and the rest replaced on its own |
| Text.ReplaceAllSkip | build.js:84-88 | a prefix in which no occurrence starts, even one running into the rest, is kept as it is, and the rest is replaced on its own |
| Text.ReplaceAllAbsent | build.js:84-88 | text without the pattern is unchanged by global replacement |
| Text.ReplaceFirst | build.js:103 | defines a `replace` with a string pattern; its properties are stated by `ReplaceFirstAt` and `ReplaceFirstAbsent` |
| Text.ReplaceFirstAt | build.js:103 | a string-pattern `replace` substitutes the first occurrence and keeps everything after it, later occurrences included |
| Text.ReplaceFirstAbsent | build.js:103 | text without the pattern is unchanged by first-only replacement |
| Frontmatter.Delimit | build.js:11-16 | there is no match exactly when the text does not start with `---\n` or has no `\n---\n` after it; otherwise the text is `---\n` + header + `\n---\n` + rest, and the header contains no earlier closing delimiter (the lazy group) |
| Frontmatter.DelimitCompose | build.js:11-12 | a header that holds no closing delimiter is recovered whole, together with the body after it |
| Frontmatter.Unquote | build.js:28-30 | a value that starts and ends with `"` loses one character at each end; a lone `"` becomes empty; other values are unchanged |
| Frontmatter.UnquoteQuoted | build.js:28-30 | unquoting a quoted text gives the text back |
| Frontmatter.ParseLine | build.js:22-30 | defines one pass of the header loop's body; its properties are stated by `ParseLineSkips`, `ParseLineFirstColon` and `ParseLineRoundTrip` |
| Frontmatter.ParseLineSkips | build.js:22-23 | exactly the lines without a colon are skipped |
| Frontmatter.ParseLineFirstColon | build.js:22-26 | only the first colon splits a line; everything after it, further colons included, is the value |
| Frontmatter.ParseLineRoundTrip | build.js:22-30 | a line `key: value` written by hand reads back as exactly that key and value |
| Frontmatter.Assign | build.js:32 | defines `frontmatter[key] = value` for one line, skipping a line without a colon and the key `__proto__`; `FoldStep` and `FoldLastWins` state its effect over the loop |
| Frontmatter.Fold | build.js:21-33 | defines the fields after the header loop has run over a prefix of the lines; its property is stated by `FoldLastWins` |
| Frontmatter.FoldLastWins | build.js:21-33 | after the header loop, a key is present exactly when some line assigns it, and it holds the value of the last such line |
| Frontmatter.Parse | build.js:10-39 | the result is `null` exactly when the delimiters do not match; otherwise `content` holds the trimmed body, whatever the header says |
| Frontmatter.LinesLastWins | build.js:19-33 | over the header's lines, a key is present exactly when some line assigns it, with the value of the last line that does |
| Frontmatter.ParseFields | build.js:10-39 | every header key other than `content` is in the result exactly when some header line assigns it, and it holds the value that the last such line gives |
| Frontmatter.SerializeDelimited | build.js:11-12 | a written header (`key: value` lines between `---` lines) is matched by the delimiters and gives back its lines and the body |
| Frontmatter.HeaderLinesFold | build.js:19-33 | the header loop over written `key: value` lines assigns each key its value, the last one winning |
| Frontmatter.ParseSerialize | build.js:10-39 | writing fields (keys without a colon, values without edge whitespace or quotes) and a body as a header file and parsing it gives the fields back, last one winning, with `content` the trimmed body |
| Frontmatter.ParseSerializeTrimmed | build.js:10-39 | for a body without edge whitespace, parsing a written file gives back exactly the fields and the body |
| Frontmatter.ReadLine | build.js:22-30 | the loop body computes the line's key and value, with `value` reassigned when it is quoted |
| Frontmatter.AssignLines | build.js:18-33 | the `for` loop fills `frontmatter` with exactly the header lines' assignments, in order |
| Frontmatter.ParseFrontmatter | build.js:10-39 | the imperative parser returns what `Parse` specifies |
| Slug.Slugify | build.js:41-47 | defines `slugify`; its properties are stated by `SlugifyNormal`, `SlugifyKeepsAlnums`, `SlugifyWords`, `SlugifyIdempotent` and `SlugifyFileName` |
| Slug.StripMd | build.js:43 | one trailing `.md` is removed, and a name without one is unchanged |
| Slug.Lower | build.js:44 | each character is lower-cased in place |
| Slug.Collapse | build.js:45 | the result holds only `[a-z0-9-]` and never two dashes in a row |
| Slug.TrimDashes | build.js:46 | the result is the text with a leading `-` cut and then a trailing `-` cut, one character each and nothing else, so a lone `-` becomes empty |
| Slug.TrimDashesNormal | build.js:46 | cutting the edge dashes of collapsed text leaves a slug with no dash at either end |
| Slug.SlugifyNormal | build.js:41-47 | every slug contains only `[a-z0-9-]`, does not start or end with `-`, and has no two `-` in a row |
| Slug.Words | build.js:45 | the maximal runs of `[a-z0-9]` of a text, in order: every word is a non-empty run of letters and digits, and there are none exactly when the text has no letter or digit |
| Slug.WordsAlnums | build.js:45 | the words hold every letter and digit of the text exactly once and in order: joined with nothing between them they are its letters and digits |
| Slug.CollapseWords | build.js:45 | collapsing is exactly the words joined by one `-` each, with one `-` before the first word when the text starts with other characters and one after the last when it ends with them |
| Slug.SlugifyWords | build.js:41-47 | a slug is the words of the lower-cased name without `.md`, joined by single dashes: one `-` per run of other characters between two words, and none at the ends |
| Slug.CollapseKeepsAlnums | build.js:45 | collapsing keeps every letter and digit, in order |
| Slug.TrimDashesKeepsAlnums | build.js:46 | cutting edge dashes keeps every letter and digit |
| Slug.SlugifyKeepsAlnums | build.js:41-47 | the slug's letters and digits are exactly those of the lower-cased name without `.md`, in order |
| Slug.CollapseSlugChars | build.js:45 | text made only of slug characters, with no double dash, collapses to itself |
| Slug.SlugCharsUnchanged | build.js:43-44 | slug characters contain no `.md` suffix to strip and no capital to lower |
| Slug.SlugifySlug | build.js:41-47 | a normal slug is its own slug |
| Slug.SlugifyIdempotent | build.js:41-47 | `slugify(slugify(x)) == slugify(x)` |
| Slug.SlugifyFileName | build.js:41-47 | a slug used as a file name, with `.md` added, slugifies to itself: `slugify(slugify(x) + ".md") == slugify(x)` |
| Content.Collect | build.js:50-71 | defines the posts before sorting (filter, map, drop `null`); its properties are stated by `CollectKept` and `CollectComplete` |
| Content.IsMarkdown | build.js:52 | defines the `.md` filter's test; `MdNames` states that exactly the listed names passing it are kept |
| Content.MdNames | build.js:50-52 | a name is kept exactly when it is listed and ends in `.md` |
| Content.MakePost | build.js:65-69 | defines the object spread `{ slug, filename, ...parsed }`; its property is stated by `MakePostFields` |
| Content.MakePostFields | build.js:65-69 | the post has `slug`, `filename` and every header field; a header `slug` or `filename` replaces the computed one |
| Content.Load | build.js:55-70 | a file gives a post exactly when its text parses, and that post has a slug, a file name and content |
| Content.LoadAll | build.js:54-70 | the map callback is applied to each `.md` name, in order |
| Content.KeptNames | build.js:50-71 | a name survives both filters exactly when it is a listed `.md` file whose text parses |
| Content.PostsOf | build.js:54-70 | there is one post per kept file |
| Content.Present | build.js:71 | defines the `null` filter; `PresentMember` and `CollectKept` state what it keeps |
| Content.PresentMember | build.js:71 | the `null` filter introduces no post that the map did not produce |
| Content.CollectKept | build.js:50-71 | filtering names, mapping and dropping `null`s gives the posts of exactly the kept files, in listing order |
| Content.CollectComplete | build.js:58-69 | every collected post can be rendered and named |
| Content.Key | build.js:73 | defines `new Date(post.date)` as an optional time; it is the sort key of `SortByDateSorted` and `SortByDateStable` |
| Content.InsertBack | build.js:73 | defines one insertion step of the sort with the comparator; its properties are stated by `InsertBackPermutes`, `InsertBackSorted` and `InsertBackStable` |
| Content.Newer | build.js:73 | defines the comparator `new Date(b.date) - new Date(a.date)` being positive, which an invalid date never makes it; `InsertBackSorted` and `InsertBackStable` state the order it gives |
| Content.InsertBackPermutes | build.js:73 | one insertion step adds the new post and loses none |
| Content.SortByDate | build.js:73 | the sort is a permutation of its input |
| Content.InsertBackSorted | build.js:73 | inserting a dated post into a newest-first list keeps it newest first |
| Content.SortByDateSorted | build.js:73 | with every date valid, the sorted posts come newest first |
| Content.InsertBackStable | build.js:73 | an insertion step keeps the order among posts with equal date keys |
| Content.SortByDateStable | build.js:73 | the sort is stable: posts with the same date key, or with none, keep their listing order |
| Content.Scan | build.js:49-74 | a missing content directory gives no result; otherwise the result is a permutation of the collected posts, each of which can be rendered |
| Content.ScanPosts | build.js:49-74 | the scan holds one post per `.md` file whose text parses; it is newest first when every date is valid, and stable among equal dates |
| Render.RenderPost | build.js:81-89 | defines `renderPost`; its properties are stated by `RenderPostFills`, `RenderPostCascade` and `RenderPostPlain` |
| Render.Field | build.js:85-87 | a present property is substituted as it is; a missing one reads `undefined` |
| Render.ReplaceAllJoin | build.js:84-88 | a placeholder between plain pieces is replaced everywhere |
| Render.RenderPostFills | build.js:81-89 | for a layout made of the four placeholders, in any order and number, between literal text containing no `{`, and a title, date and description containing no `{`, every placeholder is filled with its field and the text between them is kept |
| Render.ShowFill | build.js:84-88 | replacing one placeholder in a template made of plain text and placeholders fills exactly the slots of that placeholder and leaves the others |
| Render.RenderPostCascade | build.js:84-88 | replacements run in order over the text so far, so a title reading `{{date}}` ends up as the post's date |
| Render.RenderPostPlain | build.js:84-88 | a layout that contains none of the four placeholders comes out unchanged, whatever other braces it holds |
| Render.Item | build.js:96-99 | defines the list item of one post; `PostListOne` states that a one-post list is this item |
| Render.PostList | build.js:94-101 | defines the post list; its properties are stated by `Items`, `PostListAppend` and `PostListOne` |
| Render.RenderHome | build.js:91-104 | defines `renderHome`; its properties are stated by `RenderHomeFirstOnly` and `RenderHomeWithoutList` |
| Render.Items | build.js:94-100 | there is one list item per post, in collection order |
| Render.PostListAppend | build.js:94-101 | the list of two collections is the first list, a newline, then the second list |
| Render.PostListOne | build.js:94-101 | the list of a single post is exactly its item |
| Render.RenderHomeFirstOnly | build.js:103 | the first `{{postlist}}` receives the list; later placeholders stay as written |
| Render.RenderHomeWithoutList | build.js:103 | a home template without `{{postlist}}` is unchanged |
| Build.PageName | build.js:130 | defines the page path `<slug>.html`; `PageNotStyle` states that it never names the stylesheet |
| Build.Built | build.js:116-143 | defines the files and the outcome of a run; its properties are stated by `BuiltOutcome`, `BuiltEarlyFailure`, `BuiltSite`, `BuiltPage`, `BuiltKeepsOthers`, `BuiltWithoutHome` and `BuiltWithoutStyle` |
| Build.WriteAll | build.js:128-139 | defines the files after a sequence of `writeFileSync` calls; `WriteAllFrame` and `WriteAllLastWins` state its effect |
| Build.WriteAllFrame | build.js:128-136 | writing adds exactly the written paths and leaves every other file as it was |
| Build.WriteAllLastWins | build.js:128-136 | a path holds the text of the last write to it |
| Build.Pages | build.js:128-133 | there is one page per post, in order, named `<slug>.html` |
| Build.PageText | build.js:129 | the text written for a post is that post rendered into the layout |
| Build.PageNotStyle | build.js:130 | no page can be written over `assets/style.css` |
| Build.BuiltComplete | build.js:128-139 | a complete run writes the pages over the old files, then `index.html`, then the stylesheet |
| Build.BuiltOther | build.js:128-139 | after a complete run every file other than `index.html` and the stylesheet is as the page writes left it |
| Build.PageWritten | build.js:128-133 | after the page loop a post's page holds that post rendered, unless a later post shares its slug |
| Build.BuiltOutcome | build.js:116-143 | a run completes exactly when all four sources exist, and otherwise fails on the first missing one, in reading order |
| Build.BuiltEarlyFailure | build.js:123-126 | a run that stops at the content directory or the layout writes nothing |
| Build.BuiltSite | build.js:128-139 | after a complete run, `index.html` holds the home page over the sorted posts, the stylesheet is copied, and the only new paths are the pages, `index.html` and the stylesheet |
| Build.BuiltPage | build.js:128-136 | a post's page holds that post rendered, unless a later post has the same slug (the later post wins) or the slug is `index` |
| Build.BuiltIndexWins | build.js:130-136 | a post whose page would be `index.html` is overwritten by the home page |
| Build.BuiltKeepsOthers | build.js:116-143 | a file keeps its old text unless the run reaches a write to it: a page of the scanned posts once the layout is read, `index.html` once `home.html` is read too, the stylesheet once it exists too |
| Build.PagesKeepOthers | build.js:128-133 | writing the pages leaves every non-page file as it was |
| Build.BuiltWithoutHome | build.js:128-136 | a missing `home.html` ends the run with `HomeMissing`, and the files are exactly the old files with the page writes applied |
| Build.BuiltWithoutStyle | build.js:135-139 | a missing stylesheet ends the run with `StyleMissing`, and the files are the old files with the page writes and then `index.html` applied |
| Build.Dist.Write | build.js:131 | `writeFileSync` creates the file or replaces its text, and touches nothing else |
| Build.Dist.WritePages | build.js:128-133 | the loop over the sorted posts leaves `dist` as the page writes specify, in order |
| Build.Dist.Build | build.js:116-143 | the imperative build leaves `dist` and the outcome exactly as `Built` specifies for the scanned posts |
| DevServer.BuildsOnStart | vite.config.js:34-39 | defines the `NODE_ENV` gate; its property is stated by `BuildStartGate` |
| DevServer.BuildStartGate | vite.config.js:34-39 | the initial build runs when `NODE_ENV` is unset or anything other than exactly `production` |
| DevServer.IsWatched | vite.config.js:58-62 | defines the watcher's path filter; its property is stated by `WatchedBySubstring` |
| DevServer.OnChange | vite.config.js:57-74 | defines the effects of one change event; its property is stated by `OnChangeOrder` |
| DevServer.OnChangeOrder | vite.config.js:57-74 | a watched change triggers one rebuild and then one reload; any other change does nothing; a reload never comes before its rebuild |
| DevServer.WatchedBySubstring | vite.config.js:58-62 | the filter matches substrings, so `dist/assets/style.css` and `mycontent/…` count as watched |
| DevServer.Ext | vite.config.js:102 | defines `path.extname`; its properties are stated by `ExtBefore` and `ExtOfSuffix` |
| DevServer.ExtOfSuffix | vite.config.js:102 | a path whose last segment is not empty, followed by `.html`, has extension `.html` |
| DevServer.JoinPath | vite.config.js:98 | defines `path.join` of a directory and a file name |
| DevServer.JoinPathOneSlash | vite.config.js:98 | the joined path is the directory, exactly one `/`, and the name: a directory path that already ends in `/` does not get a second one |
| DevServer.Pathname | vite.config.js:84 | the request path is the longest prefix of the URL before any `?` or `#` |
| DevServer.RequestPath | vite.config.js:85 | defines the `/` to `/index.html` mapping; `RootServesIndex` states that `/` serves `index.html` |
| DevServer.ContentType | vite.config.js:103-115 | a table extension gets its entry; every other extension gets `text/plain` |
| DevServer.ContentTypeExact | vite.config.js:103-115 | the lookup is case-sensitive (`.HTML` and `.htm` are plain text), and `text/plain` means the extension is not in the table |
| DevServer.Resolve | vite.config.js:88-99 | defines the path the middleware settles on; its properties are stated by `HtmlFallback` and `DirectoryIndex` |
| DevServer.Inject | vite.config.js:119-124 | defines the script injection; its property is stated by `InjectBeforeFirst` |
| DevServer.Body | vite.config.js:116-126 | defines the body sent for a file; its property is stated by `BodyUnchanged` |
| DevServer.Respond | vite.config.js:77-130 | defines the middleware's answer; its properties are stated by `ServedIffFile`, `ExistingFileServed`, `ServesHtml`, `RootServesIndex`, `HtmlFallback` and `DirectoryIndex` |
| DevServer.Handle | vite.config.js:77-130 | the middleware, reassigning `distPath` step by step, answers as `Respond` specifies |
| DevServer.IsViteRequest | vite.config.js:79-81 | defines the requests left to Vite; its properties are stated by `ViteRequestsPass` and `RootNotVite` |
| DevServer.ViteRequestsPass | vite.config.js:79-81 | URLs starting with `/@vite` or `/__vite` go to `next` |
| DevServer.ServedIffFile | vite.config.js:101-129 | a request is answered exactly when it is not a Vite request and its resolved path is an existing file; otherwise it goes to `next` |
| DevServer.ExistingFileServed | vite.config.js:85-126 | an existing file named by the request is served with its table type, with the script injected when it is HTML |
| DevServer.ServesHtml | vite.config.js:101-126 | a request that resolves to an existing `.html` file is answered as `text/html`, with the live-reload script injected into the file's text |
| DevServer.RootNotVite | vite.config.js:79-85 | a URL whose path is `/` is never a Vite request |
| DevServer.RootServesIndex | vite.config.js:85 | `/`, with or without a query, serves `index.html` as HTML |
| DevServer.HtmlFallback | vite.config.js:89-91 | a missing path without an extension is served from the `.html` file of the same name |
| DevServer.DirectoryIndex | vite.config.js:94-99 | a directory is served through its `index.html` |
| DevServer.InjectBeforeFirst | vite.config.js:119-124 | the script is inserted immediately before the first `</body>`, and the rest is left alone |
| DevServer.BodyUnchanged | vite.config.js:116-126 | HTML without `</body>`, and any non-HTML file, is sent as it was read |

## Left out

- Filesystem calls are left out: `existsSync`, `mkdirSync`, `readdirSync`, `readFileSync`, `writeFileSync`, `copyFileSync` and `statSync`. Their results are the model's inputs: `Sources`, the `Directory` listing and text, and the `Fs` map. Their effects are the `Dist.files` map.
- Content files that cannot be read are assumed away: `Content.Scan` and `Build.Dist.Build` require every listed name to have a text. A listed subdirectory named `*.md` makes `readFileSync` throw, and that case is not modelled.
- `marked` is a parameter. Markdown rendering is not modelled.
- `new Date(...)` is the parameter `dateOf`. The comparator's subtraction of two dates is modelled by `Content.Newer`, which compares the two integer keys; a `NaN` result, from an invalid date, is modelled as not newer.
- Build.PageName: page paths are taken literally. The path is the slug followed by `.html`, with none of `path.join`'s normalisation: a header `slug: drafts/x` names the page `drafts/x.html`, and `slug: ./index` names `./index.html`, a different key from `index.html`, although both name the same file on disk. For such slugs `BuiltSite` and `BuiltIndexWins` describe the literal keys, not the files.
- Build.Dist.Write: write failures are not modelled. `writeFileSync` throws when the page's directory does not exist, for instance for `slug: drafts/x` without `dist/drafts`, which would end the run before `index.html` is written. The model's writes always succeed, so `BuiltOutcome` reports `Pass` for such a run.
- Content.SortByDate: the sort is modelled as a stable insertion sort. It moves a post forward past every post it compares newer than. With every date valid, it gives the same order as V8's stable sort. With invalid dates, JavaScript's comparator is inconsistent, and V8's result can differ from the model's.
- Content.ScanPosts: newest-first order is stated only when every date is valid.
- Render.RenderPost: replacement text is inserted literally. JavaScript's `$&`, `$1`, `$$` and similar patterns in a replacement are not modelled.
- Render.RenderPostFills: the whole-page fill is proved only for layout text and a title, date and description that contain no `{`. A layout with inline CSS or script braces, or a field such as `uses {braces}`, is covered only step by step: each of the four replacements is described by `Text.ReplaceAllIsJoin`, and `RenderPostCascade` shows how a field holding placeholder text is rewritten by the later replacements.
- Render.RenderHome: the replacement text is also inserted literally, as for `RenderPost`.
- `renderHome`'s second argument is ignored by the code. The model passes the home template instead, because the code reads it inside `renderHome`.
- Slug.Lower: `toLowerCase` is modelled for ASCII letters only. Other characters are kept as they are, for example `K` (U+212A), which JavaScript maps to `k`.
- Text.IsSpace follows the ECMAScript whitespace and line-terminator list. Strings are sequences of characters with no UTF-16 surrogate handling.
- DevServer.Pathname: only the cut at `?` and `#` is modelled. `new URL` also does percent-encoding, dot-segment removal and host parsing of `//` URLs.
- DevServer.Ext: it is the text from the last dot of the last segment, and empty for no dot or a leading dot. Node's special cases, such as `..`, are not modelled.
- DevServer.JoinPath: the only `path.join` normalisation modelled is adding or keeping one `/`.
- The `dist` prefix and `process.cwd()` are dropped from paths. Served paths are modelled relative to `dist`, starting with `/`.
- Vite's plugin, server, WebSocket and watcher APIs are left out. So are `execSync`, console output and the port settings. Rebuilds cannot overlap, because `execSync` blocks the event loop that also runs the watcher callback and the middleware until the build exits. Change events that arrive during a build are queued, and each then triggers a rebuild of its own; the model treats each change event on its own and does not capture that queue.
- DevServer.OnChange models a failing `execSync` only as a missing reload. The exception itself is not modelled.
- DevServer.Body: a served file is modelled as the text that `readFileSync(path, "utf-8")` decodes, and `res.end` sends that text. Bytes that are not valid UTF-8, as in most `.png`, `.jpg`, `.gif` and `.ico` files of the content-type table, decode to U+FFFD, so such a file is not sent unchanged. The model has no bytes, so `BodyUnchanged` and `ExistingFileServed` speak of the decoded text, not the file on disk.

=== FILE: build.dfy ===
/** `build` and `copyAssets` (build.js): one run of the generator, writing a page per
    post, the home page and the stylesheet into the output directory `dist`. */
module Build {
  import opened Wrappers
  import Content
  import Render

  /** What a run reads: the content directory, `templates/layout.html`,
      `templates/home.html` and `assets/style.css`; `None` when it does not exist. */
  datatype Sources = Sources(
    content: Option<Content.Directory>,
    layout: Option<string>,
    home: Option<string>,
    style: Option<string>)

  /** The read that throws and ends the run. */
  datatype BuildError = ContentMissing | LayoutMissing | HomeMissing | StyleMissing

  /** Every listed content file can be read. */
  predicate Readable(src: Sources) {
    src.content.Some? ==> Content.Readable(src.content.value.listing, src.content.value.files)
  }

  /** Paths of the output files, relative to `dist`. */
  const INDEX: string := "index.html"
  const STYLE: string := "assets/style.css"

  /** `${post.slug}.html`. */
  function PageName(post: Content.Post): string {
    Render.Field(post, Content.SLUG) + ".html"
  }

  predicate AllComplete(posts: seq<Content.Post>) {
    forall p :: p in posts ==> Content.Complete(p)
  }

  /** The output directory after `writeFileSync` has written each (path, text) pair of
      `writes` over `files`, in order. */
  function WriteAll(files: map<string, string>, writes: seq<(string, string)>): map<string, string>
    decreases |writes|
  {
    if writes == [] then files
    else
      var last := writes[|writes| - 1];
      WriteAll(files, writes[..|writes| - 1])[last.0 := last.1]
  }

  /** Writing one more of `writes` updates the files the earlier ones left. */
  lemma WriteAllNext(files: map<string, string>, writes: seq<(string, string)>, i: nat)
    requires i < |writes|
    ensures WriteAll(files, writes[..i + 1]) == WriteAll(files, writes[..i])[writes[i].0 := writes[i].1]
  {
    assert writes[..i + 1][..i] == writes[..i];
  }

  /** The paths of `writes`. */
  function Paths(writes: seq<(string, string)>): (r: set<string>)
    ensures forall k :: k in r <==> exists i :: 0 <= i < |writes| && writes[i].0 == k
  {
    set i | 0 <= i < |writes| :: writes[i].0
  }

  /** Writing adds exactly the written paths and leaves every other file as it was. */
  lemma {:induction false} WriteAllFrame(files: map<string, string>, writes: seq<(string, string)>)
    ensures WriteAll(files, writes).Keys == files.Keys + Paths(writes)
    ensures forall k :: k in files && k !in Paths(writes) ==> WriteAll(files, writes)[k] == files[k]
    decreases |writes|
  {
    if writes != [] {
      var init := writes[..|writes| - 1];
      WriteAllFrame(files, init);
      assert Paths(writes) == Paths(init) + {writes[|writes| - 1].0};
    }
  }

  /** A path holds the text of the last write to it. */
  lemma {:induction false} WriteAllLastWins(files: map<string, string>, writes: seq<(string, string)>, i: nat)
    requires i < |writes|
    requires forall j :: i < j < |writes| ==> writes[j].0 != writes[i].0
    ensures writes[i].0 in WriteAll(files, writes)
    ensures WriteAll(files, writes)[writes[i].0] == writes[i].1
    decreases |writes|
  {
    var n := |writes| - 1;
    if i < n {
      var init := writes[..n];
      assert init[i] == writes[i];
      WriteAllLastWins(files, init, i);
    }
  }

  /** The page of each post, in order: its path and the rendered layout. */
  function Pages(posts: seq<Content.Post>, layout: string, markdown: string -> string): (r: seq<(string, string)>)
    requires AllComplete(posts)
    ensures |r| == |posts|
    ensures forall i :: 0 <= i < |posts| ==> r[i].0 == PageName(posts[i])
    decreases |posts|
  {
    if posts == [] then []
    else
      var last := posts[|posts| - 1];
      assert last in posts;
      assert forall p :: p in posts[..|posts| - 1] ==> p in posts;
      Pages(posts[..|posts| - 1], layout, markdown) + [(PageName(last), Render.RenderPost(last, layout, markdown))]
  }

  /** The names of the pages of `posts`. */
  function PageNames(posts: seq<Content.Post>): (r: set<string>)
    ensures forall k :: k in r <==> exists i :: 0 <= i < |posts| && PageName(posts[i]) == k
  {
    set i | 0 <= i < |posts| :: PageName(posts[i])
  }

  lemma PagesPaths(posts: seq<Content.Post>, layout: string, markdown: string -> string)
    requires AllComplete(posts)
    ensures Paths(Pages(posts, layout, markdown)) == PageNames(posts)
  {
    var w := Pages(posts, layout, markdown);
    forall k | k in PageNames(posts) ensures k in Paths(w) {
      var i :| 0 <= i < |posts| && PageName(posts[i]) == k;
      assert w[i].0 == k;
    }
  }

  /** The files after a run over `before` whose scan gave `scanned` (`None` when the
      content directory is missing), and how the run ended: the first read that fails
      throws, and whatever was written before it stays written. */
  function Built(before: map<string, string>, scanned: Option<seq<Content.Post>>,
                 layout: Option<string>, home: Option<string>, style: Option<string>,
                 markdown: string -> string): (Outcome<BuildError>, map<string, string>)
    requires scanned.Some? ==> AllComplete(scanned.value)
  {
    match scanned
    case None => (Fail(ContentMissing), before)
    case Some(posts) =>
      if layout.None? then (Fail(LayoutMissing), before)
      else
        var pages := WriteAll(before, Pages(posts, layout.value, markdown));
        if home.None? then (Fail(HomeMissing), pages)
        else
          var site := pages[INDEX := Render.RenderHome(posts, home.value)];
          if style.None? then (Fail(StyleMissing), site)
          else (Pass, site[STYLE := style.value])
  }

  /** A run completes exactly when all four sources exist, and fails on the first
      missing one, in the order they are read. */
  lemma BuiltOutcome(before: map<string, string>, scanned: Option<seq<Content.Post>>,
                     layout: Option<string>, home: Option<string>, style: Option<string>,
                     markdown: string -> string)
    requires scanned.Some? ==> AllComplete(scanned.value)
    ensures var outcome := Built(before, scanned, layout, home, style, markdown).0;
      && (outcome == Pass <==> scanned.Some? && layout.Some? && home.Some? && style.Some?)
      && (outcome == Fail(ContentMissing) <==> scanned.None?)
      && (outcome == Fail(LayoutMissing) <==> scanned.Some? && layout.None?)
      && (outcome == Fail(HomeMissing) <==> scanned.Some? && layout.Some? && home.None?)
  {
  }

  /** A run that stops at the content directory or the layout writes nothing. */
  lemma BuiltEarlyFailure(before: map<string, string>, scanned: Option<seq<Content.Post>>,
                          layout: Option<string>, home: Option<string>, style: Option<string>,
                          markdown: string -> string)
    requires scanned.Some? ==> AllComplete(scanned.value)
    requires scanned.None? || layout.None?
    ensures Built(before, scanned, layout, home, style, markdown).1 == before
  {
  }

  /** The text written for the `i`th post is its rendered page. */
  lemma {:induction false} PageText(posts: seq<Content.Post>, layout: string, markdown: string -> string, i: nat)
    requires AllComplete(posts) && i < |posts|
    ensures posts[i] in posts && Content.Complete(posts[i])
    ensures Pages(posts, layout, markdown)[i].1 == Render.RenderPost(posts[i], layout, markdown)
    decreases |posts|
  {
    assert posts[i] in posts;
    var n := |posts| - 1;
    PagesSnoc(posts, layout, markdown);
    if i < n {
      assert posts[..n][i] == posts[i];
      PageText(posts[..n], layout, markdown, i);
    }
  }

  /** `Pages` over a non-empty list: the pages of all but the last post, then its own. */
  lemma PagesSnoc(posts: seq<Content.Post>, layout: string, markdown: string -> string)
    requires AllComplete(posts) && posts != []
    ensures AllComplete(posts[..|posts| - 1]) && Content.Complete(posts[|posts| - 1])
    ensures Pages(posts, layout, markdown) == Pages(posts[..|posts| - 1], layout, markdown)
      + [(PageName(posts[|posts| - 1]), Render.RenderPost(posts[|posts| - 1], layout, markdown))]
  {
    assert posts[|posts| - 1] in posts;
    assert forall p :: p in posts[..|posts| - 1] ==> p in posts;
  }

  /** No page is written over the stylesheet: a page name ends in `.html`. */
  lemma PageNotStyle(post: Content.Post)
    ensures PageName(post) != STYLE
  {
    var name := PageName(post);
    assert name[|name| - 1] == 'l' && STYLE[|STYLE| - 1] == 's';
  }

  /** The files after a complete run: the pages written over the old files, then
      `index.html`, then the stylesheet. */
  lemma BuiltComplete(before: map<string, string>, posts: seq<Content.Post>,
                      layout: string, home: string, style: string, markdown: string -> string)
    requires AllComplete(posts)
    ensures Built(before, Some(posts), Some(layout), Some(home), Some(style), markdown).1
      == WriteAll(before, Pages(posts, layout, markdown))[INDEX := Render.RenderHome(posts, home)][STYLE := style]
  {
  }

  /** After a complete run, `index.html` holds the home page over the sorted posts and
      the stylesheet is copied; the files present are the old ones, the pages,
      `index.html` and the stylesheet. */
  lemma BuiltSite(before: map<string, string>, posts: seq<Content.Post>,
                  layout: string, home: string, style: string, markdown: string -> string)
    requires AllComplete(posts)
    ensures var files := Built(before, Some(posts), Some(layout), Some(home), Some(style), markdown).1;
      && files.Keys == before.Keys + PageNames(posts) + {INDEX, STYLE}
      && files[INDEX] == Render.RenderHome(posts, home)
      && files[STYLE] == style
  {
    BuiltComplete(before, posts, layout, home, style, markdown);
    WriteAllFrame(before, Pages(posts, layout, markdown));
    PagesPaths(posts, layout, markdown);
  }

  /** After a complete run the page of a post that no later post shares its slug
      with, and that is not `index.html`, is that post rendered into the layout: of
      several posts with one slug, the last in sorted order wins. */
  lemma BuiltPage(before: map<string, string>, posts: seq<Content.Post>,
                  layout: string, home: string, style: string, markdown: string -> string, i: nat)
    requires AllComplete(posts) && i < |posts|
    requires PageName(posts[i]) != INDEX
    requires forall j :: i < j < |posts| ==> PageName(posts[j]) != PageName(posts[i])
    ensures Content.Complete(posts[i])
    ensures var files := Built(before, Some(posts), Some(layout), Some(home), Some(style), markdown).1;
      PageName(posts[i]) in files && files[PageName(posts[i])] == Render.RenderPost(posts[i], layout, markdown)
  {
    PageNotStyle(posts[i]);
    BuiltOther(before, posts, layout, home, style, markdown, PageName(posts[i]));
    PageWritten(before, posts, layout, markdown, i);
  }

  /** After a complete run every file but `index.html` and the stylesheet is as the
      pages left it. */
  lemma BuiltOther(before: map<string, string>, posts: seq<Content.Post>,
                   layout: string, home: string, style: string, markdown: string -> string, k: string)
    requires AllComplete(posts)
    requires k != INDEX && k != STYLE
    ensures var files := Built(before, Some(posts), Some(layout), Some(home), Some(style), markdown).1;
      var pages := WriteAll(before, Pages(posts, layout, markdown));
      (k in files <==> k in pages) && (k in pages ==> files[k] == pages[k])
  {
    BuiltComplete(before, posts, layout, home, style, markdown);
  }

  /** Writing the pages leaves the rendered post under its page name, unless a later
      post shares the name. */
  lemma PageWritten(before: map<string, string>, posts: seq<Content.Post>, layout: string,
                    markdown: string -> string, i: nat)
    requires AllComplete(posts) && i < |posts|
    requires forall j :: i < j < |posts| ==> PageName(posts[j]) != PageName(posts[i])
    ensures Content.Complete(posts[i])
    ensures var pages := WriteAll(before, Pages(posts, layout, markdown));
      PageName(posts[i]) in pages && pages[PageName(posts[i])] == Render.RenderPost(posts[i], layout, markdown)
  {
    WriteAllLastWins(before, Pages(posts, layout, markdown), i);
    PageText(posts, layout, markdown, i);
  }

  /** A post named `index` has its page replaced by the home page. */
  lemma BuiltIndexWins(before: map<string, string>, posts: seq<Content.Post>,
                       layout: string, home: string, style: string, markdown: string -> string, i: nat)
    requires AllComplete(posts) && i < |posts|
    requires PageName(posts[i]) == INDEX
    ensures PageName(posts[i]) in Built(before, Some(posts), Some(layout), Some(home), Some(style), markdown).1
    ensures Built(before, Some(posts), Some(layout), Some(home), Some(style), markdown).1[PageName(posts[i])]
      == Render.RenderHome(posts, home)
  {
    BuiltComplete(before, posts, layout, home, style, markdown);
    assert |INDEX| != |STYLE|;
  }

  /** A run writes nothing but the pages, `index.html` and the stylesheet, and each of
      those only when it gets that far: every other file keeps its text. */
  lemma BuiltKeepsOthers(before: map<string, string>, scanned: Option<seq<Content.Post>>,
                         layout: Option<string>, home: Option<string>, style: Option<string>,
                         markdown: string -> string, k: string)
    requires scanned.Some? ==> AllComplete(scanned.value)
    requires k in before
    requires scanned.Some? && layout.Some? ==> k !in PageNames(scanned.value)
    requires k == INDEX ==> scanned.None? || layout.None? || home.None?
    requires k == STYLE ==> scanned.None? || layout.None? || home.None? || style.None?
    ensures var files := Built(before, scanned, layout, home, style, markdown).1;
      k in files && files[k] == before[k]
  {
    if scanned.Some? && layout.Some? {
      PagesKeepOthers(before, scanned.value, layout.value, markdown, k);
      if home.Some? {
        assert k != INDEX;
        if style.Some? {
          assert k != STYLE;
        }
      }
    }
  }

  /** Writing the pages leaves every file that is not a page as it was. */
  lemma PagesKeepOthers(before: map<string, string>, posts: seq<Content.Post>, layout: string,
                        markdown: string -> string, k: string)
    requires AllComplete(posts)
    requires k in before && k !in PageNames(posts)
    ensures var pages := WriteAll(before, Pages(posts, layout, markdown));
      k in pages && pages[k] == before[k]
  {
    var writes := Pages(posts, layout, markdown);
    WriteAllFrame(before, writes);
    PagesPaths(posts, layout, markdown);
  }

  /** A missing `home.html` ends the run after the pages: they are written, while
      `index.html` and the stylesheet keep whatever text they had. */
  lemma BuiltWithoutHome(before: map<string, string>, posts: seq<Content.Post>,
                         layout: string, style: Option<string>, markdown: string -> string)
    requires AllComplete(posts)
    ensures Built(before, Some(posts), Some(layout), None, style, markdown) ==
      (Fail(HomeMissing), WriteAll(before, Pages(posts, layout, markdown)))
    ensures Built(before, Some(posts), Some(layout), None, style, markdown).1.Keys ==
      before.Keys + PageNames(posts)
  {
    WriteAllFrame(before, Pages(posts, layout, markdown));
    PagesPaths(posts, layout, markdown);
  }

  /** A missing stylesheet ends the run after `index.html`: the pages and the home
      page are written, and an old `assets/style.css` keeps its text. */
  lemma BuiltWithoutStyle(before: map<string, string>, posts: seq<Content.Post>,
                          layout: string, home: string, markdown: string -> string)
    requires AllComplete(posts)
    ensures Built(before, Some(posts), Some(layout), Some(home), None, markdown) ==
      (Fail(StyleMissing), WriteAll(before, Pages(posts, layout, markdown))[INDEX := Render.RenderHome(posts, home)])
  {
  }

  /** The output directory `dist`: the text of each file, by its path under `dist`. */
  class Dist {
    var files: map<string, string>

    /** An empty output directory. */
    constructor ()
      ensures files == map[]
    {
      files := map[];
    }

    /** `fs.writeFileSync`: creates the file or replaces its text. */
    method Write(name: string, text: string)
      modifies this
      ensures files == old(files)[name := text]
    {
      files := files[name := text];
    }

    /** The loop of `build()` over the sorted posts: each post's page is written in
        turn, a later page replacing an earlier one of the same name. */
    method WritePages(posts: seq<Content.Post>, template: string, markdown: string -> string)
      requires AllComplete(posts)
      modifies this
      ensures files == WriteAll(old(files), Pages(posts, template, markdown))
    {
      ghost var pages := Pages(posts, template, markdown);
      var i := 0;
      while i < |posts|
        invariant 0 <= i <= |posts|
        invariant files == WriteAll(old(files), pages[..i])
      {
        var post := posts[i];
        PageText(posts, template, markdown, i);
        WriteAllNext(old(files), pages, i);
        Write(PageName(post), Render.RenderPost(post, template, markdown));
        i := i + 1;
      }
      assert pages[..i] == pages;
    }

    /** `build()`: scans the content, writes each post's page in order, then the home
        page, then copies the stylesheet; the first missing source ends the run. */
    method Build(src: Sources, markdown: string -> string, dateOf: string -> Option<int>)
      returns (outcome: Outcome<BuildError>)
      requires Readable(src)
      modifies this
      ensures (outcome, files) ==
        Built(old(files), Content.Scan(src.content, dateOf), src.layout, src.home, src.style, markdown)
    {
      var scanned := Content.Scan(src.content, dateOf);
      if scanned.None? {
        return Fail(ContentMissing);
      }
      var posts := scanned.value;
      if src.layout.None? {
        return Fail(LayoutMissing);
      }
      var template := src.layout.value;
      WritePages(posts, template, markdown);
      if src.home.None? {
        return Fail(HomeMissing);
      }
      Write(INDEX, Render.RenderHome(posts, src.home.value));
      if src.style.None? {
        return Fail(StyleMissing);
      }
      Write(STYLE, src.style.value);
      return Pass;
    }
  }
}

=== FILE: content.dfy ===
/** `scanContent` (build.js): the `.md` files of the content directory, parsed, turned
    into posts and ordered newest first. The directory is given as its listing, in
    `readdirSync` order, and the text of each listed file. */
module Content {
  import opened Wrappers
  import opened Text
  import Frontmatter
  import Slug

  /** A post: the fields of a parsed file plus its `slug` and `filename`. */
  type Post = map<string, string>

  const SLUG: string := "slug"
  const FILENAME: string := "filename"
  const DATE: string := "date"

  /** The content directory: its entry names in listing order, and the text of each. */
  datatype Directory = Directory(listing: seq<string>, files: map<string, string>)

  /** Every listed name can be read. */
  predicate Readable(listing: seq<string>, files: map<string, string>) {
    forall n :: n in listing ==> n in files
  }

  predicate IsMarkdown(name: string) {
    EndsWith(name, Slug.MD)
  }

  /** `.filter((file) => file.endsWith(".md"))`. */
  function MdNames(listing: seq<string>): (r: seq<string>)
    ensures forall n :: n in r <==> n in listing && IsMarkdown(n)
  {
    if listing == [] then []
    else (if IsMarkdown(listing[0]) then [listing[0]] else []) + MdNames(listing[1..])
  }

  /** `{ slug: slugify(file), filename: file, ...parsed }`. */
  function MakePost(name: string, parsed: Frontmatter.Fields): Post {
    map[SLUG := Slug.Slugify(name), FILENAME := name] + parsed
  }

  /** Header keys spread over the two computed properties: a header `slug` or
      `filename` wins over the computed one, and every header field is kept. */
  lemma MakePostFields(name: string, parsed: Frontmatter.Fields)
    ensures MakePost(name, parsed).Keys == {SLUG, FILENAME} + parsed.Keys
    ensures forall k :: k in parsed ==> MakePost(name, parsed)[k] == parsed[k]
    ensures SLUG !in parsed ==> MakePost(name, parsed)[SLUG] == Slug.Slugify(name)
    ensures FILENAME !in parsed ==> MakePost(name, parsed)[FILENAME] == name
  {
  }

  /** The callback of `.map`: the post read from one file, or `null` when its text
      does not parse. */
  function Load(name: string, files: map<string, string>): (r: Option<Post>)
    requires name in files
    ensures r.Some? <==> Frontmatter.Parse(files[name]).Some?
    ensures r.Some? ==> Complete(r.value)
  {
    match Frontmatter.Parse(files[name])
    case None => None
    case Some(parsed) => Some(MakePost(name, parsed))
  }

  function LoadAll(names: seq<string>, files: map<string, string>): (r: seq<Option<Post>>)
    requires Readable(names, files)
    ensures |r| == |names|
    ensures forall i :: 0 <= i < |names| ==> r[i] == Load(names[i], files)
  {
    seq(|names|, i requires 0 <= i < |names| => Load(names[i], files))
  }

  /** `.filter((post) => post !== null)`. */
  function Present(xs: seq<Option<Post>>): seq<Post> {
    if xs == [] then []
    else (if xs[0].Some? then [xs[0].value] else []) + Present(xs[1..])
  }

  /** The posts before sorting, in listing order. */
  function Collect(listing: seq<string>, files: map<string, string>): seq<Post>
    requires Readable(listing, files)
  {
    Present(LoadAll(MdNames(listing), files))
  }

  // ---------------------------------------------------------------------------
  // Which files become posts

  /** The file becomes a post: it is a `.md` file whose text parses. */
  predicate Kept(name: string, files: map<string, string>) {
    IsMarkdown(name) && name in files && Frontmatter.Parse(files[name]).Some?
  }

  /** The names of the files that become posts, in listing order. */
  function KeptNames(listing: seq<string>, files: map<string, string>): (r: seq<string>)
    ensures forall n :: n in r <==> n in listing && Kept(n, files)
  {
    if listing == [] then []
    else (if Kept(listing[0], files) then [listing[0]] else []) + KeptNames(listing[1..], files)
  }

  /** The post of each kept file. */
  function PostsOf(names: seq<string>, files: map<string, string>): (r: seq<Post>)
    requires forall n :: n in names ==> Kept(n, files)
    ensures |r| == |names|
  {
    if names == [] then []
    else
      assert names[0] in names && Kept(names[0], files);
      [MakePost(names[0], Frontmatter.Parse(files[names[0]]).value)] + PostsOf(names[1..], files)
  }

  lemma {:induction false} PresentAppend(a: seq<Option<Post>>, b: seq<Option<Post>>)
    ensures Present(a + b) == Present(a) + Present(b)
  {
    if a != [] {
      assert (a + b)[0] == a[0] && (a + b)[1..] == a[1..] + b;
      PresentAppend(a[1..], b);
    } else {
      assert a + b == b;
    }
  }

  lemma LoadAllAppend(a: seq<string>, b: seq<string>, files: map<string, string>)
    requires Readable(a, files) && Readable(b, files)
    ensures Readable(a + b, files)
    ensures LoadAll(a + b, files) == LoadAll(a, files) + LoadAll(b, files)
  {
    forall n | n in a + b ensures n in files {
      assert n in a || n in b;
    }
    var joined, parts := LoadAll(a + b, files), LoadAll(a, files) + LoadAll(b, files);
    forall i | 0 <= i < |joined| ensures joined[i] == parts[i] {
      if i < |a| {
        assert (a + b)[i] == a[i];
      } else {
        assert (a + b)[i] == b[i - |a|];
      }
    }
  }

  lemma {:induction false} PostsOfAppend(a: seq<string>, b: seq<string>, files: map<string, string>)
    requires forall n :: n in a ==> Kept(n, files)
    requires forall n :: n in b ==> Kept(n, files)
    ensures forall n :: n in a + b ==> Kept(n, files)
    ensures PostsOf(a + b, files) == PostsOf(a, files) + PostsOf(b, files)
  {
    if a != [] {
      assert (a + b)[0] == a[0] && (a + b)[1..] == a[1..] + b;
      PostsOfAppend(a[1..], b, files);
    } else {
      assert a + b == b;
    }
  }

  lemma PresentOne(x: Option<Post>)
    ensures Present([x]) == if x.Some? then [x.value] else []
  {
    assert [x][1..] == [];
  }

  lemma LoadAllOne(n: string, files: map<string, string>)
    requires n in files
    ensures LoadAll([n], files) == [Load(n, files)]
  {
  }

  lemma PostsOfOne(n: string, files: map<string, string>)
    requires Kept(n, files)
    ensures PostsOf([n], files) == [MakePost(n, Frontmatter.Parse(files[n]).value)]
  {
    assert Kept([n][0], files);
    assert [n][1..] == [];
  }

  /** Mapping and filtering one name after the other gives the posts of exactly the
      `.md` files whose text parses, in listing order. */
  lemma {:induction false} CollectKept(listing: seq<string>, files: map<string, string>)
    requires Readable(listing, files)
    ensures Collect(listing, files) == PostsOf(KeptNames(listing, files), files)
  {
    if listing != [] {
      var n, rest := listing[0], listing[1..];
      assert n in files && Readable(rest, files);
      CollectKept(rest, files);
      var md, kept := MdNames(rest), KeptNames(rest, files);
      if Kept(n, files) {
        assert MdNames(listing) == [n] + md;
        assert KeptNames(listing, files) == [n] + kept;
        LoadAllAppend([n], md, files);
        PresentAppend(LoadAll([n], files), LoadAll(md, files));
        PostsOfAppend([n], kept, files);
        LoadAllOne(n, files);
        PresentOne(Load(n, files));
        PostsOfOne(n, files);
      } else if IsMarkdown(n) {
        assert MdNames(listing) == [n] + md;
        assert KeptNames(listing, files) == kept;
        LoadAllAppend([n], md, files);
        PresentAppend(LoadAll([n], files), LoadAll(md, files));
        LoadAllOne(n, files);
        PresentOne(Load(n, files));
      } else {
        assert MdNames(listing) == md;
        assert KeptNames(listing, files) == kept;
      }
    }
  }

  // ---------------------------------------------------------------------------
  // Ordering: `posts.sort((a, b) => new Date(b.date) - new Date(a.date))`

  /** The time of a post's `date`, as `new Date(post.date)` reads it; `None` for an
      invalid date and for a post without one (`new Date(undefined)`). */
  function Key(p: Post, dateOf: string -> Option<int>): Option<int> {
    if DATE in p then dateOf(p[DATE]) else None
  }

  /** The comparator `cmp(e, x)` is positive: both dates are valid and `x` is later. */
  predicate Newer(x: Post, e: Post, dateOf: string -> Option<int>) {
    Key(x, dateOf).Some? && Key(e, dateOf).Some? && Key(x, dateOf).value > Key(e, dateOf).value
  }

  /** One insertion step: `x` moves left past every element it compares later than,
      and stops at the first that it does not (a comparison with an invalid date is
      `NaN`, which never moves it). */
  function InsertBack(s: seq<Post>, x: Post, dateOf: string -> Option<int>): seq<Post>
    decreases |s|
  {
    if s == [] then [x]
    else if Newer(x, s[|s| - 1], dateOf) then InsertBack(s[..|s| - 1], x, dateOf) + [s[|s| - 1]]
    else s + [x]
  }

  /** An insertion step adds the new post and loses none. */
  lemma {:induction false} InsertBackPermutes(s: seq<Post>, x: Post, dateOf: string -> Option<int>)
    ensures multiset(InsertBack(s, x, dateOf)) == multiset(s) + multiset{x}
    decreases |s|
  {
    if s != [] && Newer(x, s[|s| - 1], dateOf) {
      var init, last := s[..|s| - 1], s[|s| - 1];
      InsertBackPermutes(init, x, dateOf);
      assert s == init + [last];
    }
  }

  /** A stable insertion sort with the `scanContent` comparator. */
  function SortByDate(posts: seq<Post>, dateOf: string -> Option<int>): (r: seq<Post>)
    ensures multiset(r) == multiset(posts)
    decreases |posts|
  {
    if posts == [] then []
    else
      assert posts == posts[..|posts| - 1] + [posts[|posts| - 1]];
      InsertBackPermutes(SortByDate(posts[..|posts| - 1], dateOf), posts[|posts| - 1], dateOf);
      InsertBack(SortByDate(posts[..|posts| - 1], dateOf), posts[|posts| - 1], dateOf)
  }

  predicate AllDated(s: seq<Post>, dateOf: string -> Option<int>) {
    forall i :: 0 <= i < |s| ==> Key(s[i], dateOf).Some?
  }

  /** Newest first. */
  predicate NewestFirst(s: seq<Post>, dateOf: string -> Option<int>)
    requires AllDated(s, dateOf)
  {
    forall i, j :: 0 <= i < j < |s| ==> Key(s[i], dateOf).value >= Key(s[j], dateOf).value
  }

  /** Every date in `s` is valid and at least `v`. */
  predicate AllAtLeast(s: seq<Post>, v: int, dateOf: string -> Option<int>) {
    forall i :: 0 <= i < |s| ==> Key(s[i], dateOf).Some? && Key(s[i], dateOf).value >= v
  }

  lemma {:induction false} InsertBackAtLeast(s: seq<Post>, x: Post, v: int, dateOf: string -> Option<int>)
    requires AllAtLeast(s, v, dateOf) && AllAtLeast([x], v, dateOf)
    ensures AllAtLeast(InsertBack(s, x, dateOf), v, dateOf)
    decreases |s|
  {
    if s != [] && Newer(x, s[|s| - 1], dateOf) {
      InsertBackAtLeast(s[..|s| - 1], x, v, dateOf);
    }
  }

  lemma {:induction false} InsertBackSorted(s: seq<Post>, x: Post, dateOf: string -> Option<int>)
    requires AllDated(s, dateOf) && Key(x, dateOf).Some? && NewestFirst(s, dateOf)
    ensures AllDated(InsertBack(s, x, dateOf), dateOf)
    ensures NewestFirst(InsertBack(s, x, dateOf), dateOf)
    decreases |s|
  {
    var r := InsertBack(s, x, dateOf);
    if s == [] {
    } else if Newer(x, s[|s| - 1], dateOf) {
      var init, last := s[..|s| - 1], s[|s| - 1];
      var v := Key(last, dateOf).value;
      InsertBackSorted(init, x, dateOf);
      assert AllAtLeast(init, v, dateOf);
      InsertBackAtLeast(init, x, v, dateOf);
      var t := InsertBack(init, x, dateOf);
      assert r == t + [last];
      assert forall i :: 0 <= i < |t| ==> r[i] == t[i];
    } else {
      assert r == s + [x];
    }
  }

  /** With every date valid, the posts come out newest first. */
  lemma {:induction false} SortByDateSorted(posts: seq<Post>, dateOf: string -> Option<int>)
    requires AllDated(posts, dateOf)
    ensures AllDated(SortByDate(posts, dateOf), dateOf)
    ensures NewestFirst(SortByDate(posts, dateOf), dateOf)
    decreases |posts|
  {
    if posts != [] {
      var init := posts[..|posts| - 1];
      SortByDateSorted(init, dateOf);
      InsertBackSorted(SortByDate(init, dateOf), posts[|posts| - 1], dateOf);
    }
  }

  /** The posts whose date key is `k`, in order. */
  function WithKey(s: seq<Post>, k: Option<int>, dateOf: string -> Option<int>): seq<Post> {
    if s == [] then []
    else WithKey(s[..|s| - 1], k, dateOf) + (if Key(s[|s| - 1], dateOf) == k then [s[|s| - 1]] else [])
  }

  lemma {:induction false} WithKeyAppend(a: seq<Post>, b: seq<Post>, k: Option<int>, dateOf: string -> Option<int>)
    ensures WithKey(a + b, k, dateOf) == WithKey(a, k, dateOf) + WithKey(b, k, dateOf)
    decreases |b|
  {
    if b == [] {
      assert a + b == a;
    } else {
      var init, last := b[..|b| - 1], b[|b| - 1];
      assert (a + b)[..|a + b| - 1] == a + init;
      WithKeyAppend(a, init, k, dateOf);
    }
  }

  lemma WithKeyOne(x: Post, k: Option<int>, dateOf: string -> Option<int>)
    ensures WithKey([x], k, dateOf) == if Key(x, dateOf) == k then [x] else []
  {
    assert [x][..0] == [];
  }

  lemma {:induction false} InsertBackStable(s: seq<Post>, x: Post, k: Option<int>, dateOf: string -> Option<int>)
    ensures WithKey(InsertBack(s, x, dateOf), k, dateOf) == WithKey(s, k, dateOf) + WithKey([x], k, dateOf)
    decreases |s|
  {
    if s == [] {
      assert InsertBack(s, x, dateOf) == [] + [x];
      WithKeyAppend([], [x], k, dateOf);
    } else if Newer(x, s[|s| - 1], dateOf) {
      var init, last := s[..|s| - 1], s[|s| - 1];
      InsertBackStable(init, x, k, dateOf);
      MovePastLast(init, last, InsertBack(init, x, dateOf), x, k, dateOf);
      assert InsertBack(s, x, dateOf) == InsertBack(init, x, dateOf) + [last];
      assert s == init + [last];
    } else {
      assert InsertBack(s, x, dateOf) == s + [x];
      WithKeyAppend(s, [x], k, dateOf);
    }
  }

  /** The step of `InsertBackStable` where `x` moves past `last`: `x` is strictly
      newer, so at most one of the two has the key `k`, and their order among the
      posts with key `k` cannot change. */
  lemma MovePastLast(init: seq<Post>, last: Post, moved: seq<Post>, x: Post, k: Option<int>,
                     dateOf: string -> Option<int>)
    requires Newer(x, last, dateOf)
    requires WithKey(moved, k, dateOf) == WithKey(init, k, dateOf) + WithKey([x], k, dateOf)
    ensures WithKey(moved + [last], k, dateOf) == WithKey(init + [last], k, dateOf) + WithKey([x], k, dateOf)
  {
    WithKeySnoc(moved, last, k, dateOf);
    WithKeySnoc(init, last, k, dateOf);
    WithKeyOne(x, k, dateOf);
    WithKeyOne(last, k, dateOf);
    SwapEmpty(WithKey(init, k, dateOf), WithKey([x], k, dateOf), WithKey([last], k, dateOf));
  }

  /** Two pieces of which one is empty can be appended in either order. */
  lemma SwapEmpty(w: seq<Post>, a: seq<Post>, b: seq<Post>)
    requires a == [] || b == []
    ensures w + a + b == w + b + a
  {
    if a == [] {
      assert w + a + b == w + b;
    } else {
      assert w + a + b == w + a;
    }
  }

  /** Appending one post adds it to the posts with key `k` exactly when it has that key. */
  lemma WithKeySnoc(s: seq<Post>, y: Post, k: Option<int>, dateOf: string -> Option<int>)
    ensures WithKey(s + [y], k, dateOf) == WithKey(s, k, dateOf) + WithKey([y], k, dateOf)
  {
    assert (s + [y])[..|s|] == s;
    WithKeyOne(y, k, dateOf);
  }

  /** The sort is stable: posts with the same date key, or with none, keep the order
      they were listed in. */
  lemma {:induction false} SortByDateStable(posts: seq<Post>, k: Option<int>, dateOf: string -> Option<int>)
    ensures WithKey(SortByDate(posts, dateOf), k, dateOf) == WithKey(posts, k, dateOf)
    decreases |posts|
  {
    if posts != [] {
      var init, last := posts[..|posts| - 1], posts[|posts| - 1];
      SortByDateStable(init, k, dateOf);
      InsertBackStable(SortByDate(init, dateOf), last, k, dateOf);
      assert [last][..0] == [];
    }
  }

  // ---------------------------------------------------------------------------

  /** `scanContent()`: `None` when the content directory is missing (`readdirSync`
      throws), otherwise the posts sorted by date, each of which can be rendered. */
  function Scan(content: Option<Directory>, dateOf: string -> Option<int>): (r: Option<seq<Post>>)
    requires content.Some? ==> Readable(content.value.listing, content.value.files)
    ensures r.None? <==> content.None?
    ensures r.Some? ==> multiset(r.value) == multiset(Collect(content.value.listing, content.value.files))
    ensures r.Some? ==> forall p :: p in r.value ==> Complete(p)
  {
    match content
    case None => None
    case Some(dir) =>
      var posts := Collect(dir.listing, dir.files);
      var sorted := SortByDate(posts, dateOf);
      CollectComplete(dir.listing, dir.files);
      SameMembers(sorted, posts);
      Some(sorted)
  }

  /** Every post has its computed `slug` and `filename` and the `content` of its file. */
  predicate Complete(p: Post) {
    SLUG in p && FILENAME in p && Frontmatter.CONTENT in p
  }

  /** Nothing but the posts that were there survives the filter. */
  lemma {:induction false} PresentMember(xs: seq<Option<Post>>)
    ensures forall p :: p in Present(xs) ==> Some(p) in xs
  {
    if xs != [] {
      PresentMember(xs[1..]);
      assert forall x :: x in xs[1..] ==> x in xs;
    }
  }

  lemma SameMembers(a: seq<Post>, b: seq<Post>)
    requires multiset(a) == multiset(b)
    ensures forall p :: p in a ==> p in b
  {
    forall p | p in a ensures p in b {
      assert p in multiset(a);
    }
  }

  /** Every collected post can be rendered and named. */
  lemma CollectComplete(listing: seq<string>, files: map<string, string>)
    requires Readable(listing, files)
    ensures forall p :: p in Collect(listing, files) ==> Complete(p)
  {
    var loaded := LoadAll(MdNames(listing), files);
    PresentMember(loaded);
    forall p | p in Collect(listing, files) ensures Complete(p) {
      assert Some(p) in loaded;
      var i :| 0 <= i < |loaded| && loaded[i] == Some(p);
    }
  }

  /** What `scanContent` returns: exactly one post per `.md` file whose text parses,
      newest first when every date is valid, and in listing order among equal dates. */
  lemma ScanPosts(dir: Directory, dateOf: string -> Option<int>)
    requires Readable(dir.listing, dir.files)
    ensures Scan(Some(dir), dateOf).Some?
    ensures multiset(Scan(Some(dir), dateOf).value) ==
      multiset(PostsOf(KeptNames(dir.listing, dir.files), dir.files))
    ensures |Scan(Some(dir), dateOf).value| == |KeptNames(dir.listing, dir.files)|
    ensures AllDated(Collect(dir.listing, dir.files), dateOf) ==>
      AllDated(Scan(Some(dir), dateOf).value, dateOf) && NewestFirst(Scan(Some(dir), dateOf).value, dateOf)
    ensures forall k: Option<int> ::
      WithKey(Scan(Some(dir), dateOf).value, k, dateOf) ==
      WithKey(PostsOf(KeptNames(dir.listing, dir.files), dir.files), k, dateOf)
  {
    var posts := Collect(dir.listing, dir.files);
    CollectKept(dir.listing, dir.files);
    assert |multiset(SortByDate(posts, dateOf))| == |multiset(posts)|;
    if AllDated(posts, dateOf) {
      SortByDateSorted(posts, dateOf);
    }
    forall k: Option<int> ensures WithKey(SortByDate(posts, dateOf), k, dateOf) == WithKey(posts, k, dateOf) {
      SortByDateStable(posts, k, dateOf);
    }
  }
}

=== FILE: devserver.dfy ===
/** The development-server plugin (vite.config.js): the initial build gate, the
    rebuild-and-reload reaction to file changes, and the middleware that serves the
    output directory with its path fallbacks, content types and the live-reload
    script. */
module DevServer {
  import opened Wrappers
  import opened Text

  // ---------------------------------------------------------------------------
  // buildStart

  const PRODUCTION: string := "production"

  /** `buildStart`: the build runs unless `NODE_ENV` is exactly `production`
      (`None` is an unset variable). */
  function BuildsOnStart(nodeEnv: Option<string>): bool {
    nodeEnv != Some(PRODUCTION)
  }

  /** An unset or differently spelt `NODE_ENV` builds; only `production` does not. */
  lemma BuildStartGate()
    ensures BuildsOnStart(None)
    ensures forall v :: BuildsOnStart(Some(v)) <==> v != PRODUCTION
    ensures BuildsOnStart(Some("development")) && BuildsOnStart(Some("Production"))
    ensures !BuildsOnStart(Some(PRODUCTION))
  {
  }

  // ---------------------------------------------------------------------------
  // The change handler

  /** What the server does: run `node build.js`, or broadcast a full page reload. */
  datatype Effect = Rebuild | Reload

  const CONTENT_DIR: string := "content/"
  const TEMPLATES_DIR: string := "templates/"
  const ASSETS_DIR: string := "assets/"

  /** The path filter: the changed path mentions one of the watched directories
      anywhere in it. */
  predicate IsWatched(file: string) {
    Contains(file, CONTENT_DIR) || Contains(file, TEMPLATES_DIR) || Contains(file, ASSETS_DIR)
  }

  /** The effects of one change event, in order; `buildSucceeds` says whether the
      build exits cleanly, as a failing build throws before the reload is sent. */
  function OnChange(file: string, buildSucceeds: bool): seq<Effect> {
    if !IsWatched(file) then []
    else if buildSucceeds then [Rebuild, Reload]
    else [Rebuild]
  }

  /** A watched change rebuilds once and then reloads once; any other change does
      nothing; no reload ever comes before its rebuild. */
  lemma OnChangeOrder(file: string, buildSucceeds: bool)
    ensures IsWatched(file) && buildSucceeds ==> OnChange(file, buildSucceeds) == [Rebuild, Reload]
    ensures !IsWatched(file) <==> OnChange(file, buildSucceeds) == []
    ensures forall i :: 0 <= i < |OnChange(file, buildSucceeds)| && OnChange(file, buildSucceeds)[i] == Reload ==>
      0 < i && OnChange(file, buildSucceeds)[i - 1] == Rebuild
  {
  }

  /** The filter matches text, not directories: the copied stylesheet in the output
      directory, or a file in `mycontent/`, counts as a watched change. */
  lemma WatchedBySubstring()
    ensures IsWatched("dist/assets/style.css")
    ensures IsWatched("mycontent/notes.txt")
    ensures !IsWatched("dist/index.html")
  {
    assert OccursAt("dist/assets/style.css", ASSETS_DIR, 5);
    assert OccursAt("mycontent/notes.txt", CONTENT_DIR, 2);
    var s := "dist/index.html";
    forall p | p in [CONTENT_DIR, TEMPLATES_DIR, ASSETS_DIR] ensures !Contains(s, p) {
      forall i: nat | i <= |s| ensures !OccursAt(s, p, i) {
        if i + |p| <= |s| {
          assert s[i..i + |p|][|p| - 1] == s[i + |p| - 1];
        }
      }
    }
  }

  // ---------------------------------------------------------------------------
  // Paths

  /** `path.extname`: the last segment from its last dot on, or nothing when the
      segment has no dot or only a leading one. */
  function Ext(path: string): string {
    ExtBefore(path, |path|)
  }

  /** The scan behind `Ext`, moving left from `j` through the last segment until it
      meets a dot or the segment's start. */
  function ExtBefore(path: string, j: nat): (r: string)
    requires j <= |path|
    ensures r == [] || (r[0] == '.' && |r| <= |path| && r == path[|path| - |r|..])
  {
    if j == 0 || path[j - 1] == '/' then []
    else if path[j - 1] == '.' then
      if j - 1 == 0 || path[j - 2] == '/' then [] else path[j - 1..]
    else ExtBefore(path, j - 1)
  }

  /** Characters other than `.` and `/` are passed over by the scan. */
  lemma {:induction false} ExtBeforeSkips(path: string, lo: nat, j: nat)
    requires lo <= j <= |path|
    requires forall k :: lo <= k < j ==> path[k] != '.' && path[k] != '/'
    ensures ExtBefore(path, j) == ExtBefore(path, lo)
    decreases j
  {
    if lo < j {
      assert path[j - 1] != '.' && path[j - 1] != '/';
      ExtBeforeSkips(path, lo, j - 1);
    }
  }

  /** A path with a non-empty last segment, given a dotted suffix without further dots
      or slashes, has that suffix as its extension. */
  lemma ExtOfSuffix(path: string, ext: string)
    requires path != [] && path[|path| - 1] != '/'
    requires |ext| >= 1 && ext[0] == '.'
    requires forall j :: 1 <= j < |ext| ==> ext[j] != '.' && ext[j] != '/'
    ensures Ext(path + ext) == ext
  {
    var s := path + ext;
    forall k | |path| + 1 <= k < |s| ensures s[k] != '.' && s[k] != '/' {
      assert s[k] == ext[k - |path|];
    }
    ExtBeforeSkips(s, |path| + 1, |s|);
    assert s[|path|] == '.' && s[|path| - 1] == path[|path| - 1];
    assert s[|path|..] == ext;
  }

  /** `path.join(dir, name)` for a directory path and a plain file name. */
  function JoinPath(dir: string, name: string): string {
    if EndsWith(dir, "/") then dir + name else dir + "/" + name
  }

  /** The joined path is the directory, then exactly one `/`, then the name. */
  lemma JoinPathOneSlash(dir: string, name: string)
    requires dir != []
    ensures var r := JoinPath(dir, name);
      EndsWith(r, "/" + name) && StartsWith(r, dir) && |r| <= |dir| + 1 + |name|
    ensures var r := JoinPath(dir, name);
      r[..|r| - |name| - 1] == dir || r[..|r| - |name| - 1] + "/" == dir
  {
  }

  /** The path of a request URL: the text before any query or fragment. */
  function Pathname(url: string): (r: string)
    ensures |r| <= |url| && r == url[..|r|]
    ensures forall j :: 0 <= j < |r| ==> r[j] != '?' && r[j] != '#'
    ensures |r| < |url| ==> url[|r|] == '?' || url[|r|] == '#'
  {
    url[..PathEnd(url, 0)]
  }

  /** The index of the first `?` or `#` at or after `i`, or `|url|`. */
  function PathEnd(url: string, i: nat): (n: nat)
    requires i <= |url|
    ensures i <= n <= |url|
    ensures forall j :: i <= j < n ==> url[j] != '?' && url[j] != '#'
    ensures n < |url| ==> url[n] == '?' || url[n] == '#'
    decreases |url| - i
  {
    if i == |url| || url[i] == '?' || url[i] == '#' then i else PathEnd(url, i + 1)
  }

  // ---------------------------------------------------------------------------
  // The middleware

  /** The output directory, by path under `dist` (each beginning with `/`). */
  datatype Node = File(text: string) | Dir
  type Fs = map<string, Node>

  predicate IsFile(fs: Fs, path: string) {
    path in fs && fs[path].File?
  }

  predicate IsDir(fs: Fs, path: string) {
    path in fs && fs[path].Dir?
  }

  /** What the middleware does with a request: hand it to the next handler, or answer
      it with a content type and a body. */
  datatype Response = Next | Serve(contentType: string, body: string)

  const VITE_CLIENT: string := "/@vite"
  const VITE_INTERNAL: string := "/__vite"
  const ROOT: string := "/"
  const INDEX_PATH: string := "/index.html"
  const INDEX_NAME: string := "index.html"
  const HTML: string := ".html"
  const PLAIN: string := "text/plain"
  const BODY_CLOSE: string := "</body>"

  /** The live-reload client, as the template literal spells it. */
  const SCRIPT: string :=
    "<script type=\"module\">\n                import \"/@vite/client\";\n              </script>"

  /** The requests the middleware leaves to the dev server itself. */
  predicate IsViteRequest(url: string) {
    StartsWith(url, VITE_CLIENT) || StartsWith(url, VITE_INTERNAL)
  }

  /** The content type table. */
  const MIME_TYPES: map<string, string> := map[
    ".html" := "text/html",
    ".css" := "text/css",
    ".js" := "text/javascript",
    ".json" := "application/json",
    ".png" := "image/png",
    ".jpg" := "image/jpeg",
    ".gif" := "image/gif",
    ".svg" := "image/svg+xml",
    ".ico" := "image/x-icon"
  ]

  /** `mimeTypes[ext] || "text/plain"`. */
  function ContentType(ext: string): (r: string)
    ensures ext in MIME_TYPES ==> r == MIME_TYPES[ext]
    ensures ext !in MIME_TYPES ==> r == PLAIN
  {
    if ext in MIME_TYPES then MIME_TYPES[ext] else PLAIN
  }

  /** The lookup is exact: `.HTML` or `.htm` files are plain text, and no table
      entry is itself plain text, so `text/plain` means the extension is unknown. */
  lemma ContentTypeExact(ext: string)
    ensures ContentType(".HTML") == PLAIN && ContentType(".htm") == PLAIN && ContentType("") == PLAIN
    ensures ContentType(ext) == PLAIN <==> ext !in MIME_TYPES
    ensures ContentType(HTML) == "text/html"
  {
  }

  /** The request path: `/` stands for `/index.html`. */
  function RequestPath(urlPath: string): string {
    if urlPath == ROOT then INDEX_PATH else urlPath
  }

  /** The path the middleware settles on: `.html` is appended to a missing path
      without an extension, then a directory is replaced by its `index.html`. */
  function Resolve(reqPath: string, fs: Fs): string {
    var candidate := if Ext(reqPath) == [] && reqPath !in fs then reqPath + HTML else reqPath;
    if IsDir(fs, candidate) then JoinPath(candidate, INDEX_NAME) else candidate
  }

  /** The live-reload script put before the first `</body>`. */
  function Inject(html: string): string {
    ReplaceFirst(html, BODY_CLOSE, SCRIPT + BODY_CLOSE)
  }

  /** The body sent for a file with extension `ext`. */
  function Body(ext: string, text: string): string {
    if ext == HTML then Inject(text) else text
  }

  /** The middleware's answer to `url` over the output directory `fs`. */
  function Respond(url: string, fs: Fs): Response {
    if IsViteRequest(url) then Next
    else
      var path := Resolve(RequestPath(Pathname(url)), fs);
      if IsFile(fs, path) then Serve(ContentType(Ext(path)), Body(Ext(path), fs[path].text))
      else Next
  }

  /** The middleware itself: `reqPath` and then `distPath` are worked out step by
      step, and the response is sent only for an existing file. */
  method Handle(url: string, fs: Fs) returns (response: Response)
    ensures response == Respond(url, fs)
  {
    if StartsWith(url, VITE_CLIENT) || StartsWith(url, VITE_INTERNAL) {
      return Next;
    }
    var urlPath := Pathname(url);
    var reqPath := if urlPath == ROOT then INDEX_PATH else urlPath;
    assert reqPath == RequestPath(urlPath);
    var distPath := reqPath;
    if Ext(reqPath) == [] && distPath !in fs {
      distPath := reqPath + HTML;
    }
    if distPath in fs && fs[distPath].Dir? {
      distPath := JoinPath(distPath, INDEX_NAME);
    }
    assert distPath == Resolve(reqPath, fs);
    if distPath in fs && fs[distPath].File? {
      var ext := Ext(distPath);
      var content := fs[distPath].text;
      if ext == HTML {
        content := ReplaceFirst(content, BODY_CLOSE, SCRIPT + BODY_CLOSE);
      }
      assert content == Body(ext, fs[distPath].text);
      return Serve(ContentType(ext), content);
    }
    return Next;
  }

  // ---------------------------------------------------------------------------
  // What the middleware promises

  /** Requests for the dev server's own client go straight to `next`. */
  lemma ViteRequestsPass(url: string, fs: Fs)
    requires IsViteRequest(url)
    ensures Respond(url, fs) == Next
  {
  }

  /** A request is answered exactly when it is not the dev server's own and its
      resolved path is an existing file; everything else falls through to `next`. */
  lemma ServedIffFile(url: string, fs: Fs)
    ensures Respond(url, fs).Serve? <==>
      !IsViteRequest(url) && IsFile(fs, Resolve(RequestPath(Pathname(url)), fs))
    ensures Respond(url, fs).Next? <==>
      IsViteRequest(url) || !IsFile(fs, Resolve(RequestPath(Pathname(url)), fs))
  {
  }

  /** An existing file named by the request is served as it was read, with the
      script injected when it is HTML. */
  lemma ExistingFileServed(url: string, fs: Fs)
    requires !IsViteRequest(url)
    requires IsFile(fs, RequestPath(Pathname(url)))
    ensures var path := RequestPath(Pathname(url));
      Respond(url, fs) == Serve(ContentType(Ext(path)), Body(Ext(path), fs[path].text))
  {
  }

  /** A request that resolves to an existing `.html` file gets it with the script. */
  lemma ServesHtml(url: string, fs: Fs, path: string)
    requires !IsViteRequest(url)
    requires Resolve(RequestPath(Pathname(url)), fs) == path
    requires IsFile(fs, path) && Ext(path) == HTML
    ensures Respond(url, fs) == Serve("text/html", Inject(fs[path].text))
  {
  }

  /** A URL whose path is `/` is not one of the dev server's own. */
  lemma RootNotVite(url: string)
    requires Pathname(url) == ROOT
    ensures !IsViteRequest(url)
  {
    if |url| >= 2 {
      assert Pathname(url)[..1] == url[..1];
      assert url[1] == '?' || url[1] == '#';
    }
  }

  lemma IndexIsHtml()
    ensures Ext(INDEX_PATH) == HTML
  {
    ExtOfSuffix("/index", HTML);
    assert "/index" + HTML == INDEX_PATH;
  }

  /** `/`, and `/?query`, serve `index.html` as HTML. */
  lemma RootServesIndex(url: string, fs: Fs)
    requires Pathname(url) == ROOT
    requires IsFile(fs, INDEX_PATH)
    ensures Respond(url, fs) == Serve("text/html", Inject(fs[INDEX_PATH].text))
  {
    RootNotVite(url);
    IndexIsHtml();
    ServesHtml(url, fs, INDEX_PATH);
  }

  /** A missing path without an extension is served from the `.html` file of the
      same name. */
  lemma HtmlFallback(url: string, fs: Fs)
    requires !IsViteRequest(url)
    requires var p := RequestPath(Pathname(url));
      p != [] && p[|p| - 1] != '/' && Ext(p) == [] && p !in fs && IsFile(fs, p + HTML)
    ensures var p := RequestPath(Pathname(url));
      Respond(url, fs) == Serve("text/html", Inject(fs[p + HTML].text))
  {
    var p := RequestPath(Pathname(url));
    ExtOfSuffix(p, HTML);
    assert Resolve(p, fs) == p + HTML;
    ServesHtml(url, fs, p + HTML);
  }

  /** A directory is served through its `index.html`. */
  lemma DirectoryIndex(url: string, fs: Fs)
    requires !IsViteRequest(url)
    requires var p := RequestPath(Pathname(url));
      IsDir(fs, p) && IsFile(fs, JoinPath(p, INDEX_NAME))
    ensures var p := RequestPath(Pathname(url));
      Respond(url, fs) == Serve("text/html", Inject(fs[JoinPath(p, INDEX_NAME)].text))
  {
    var p := RequestPath(Pathname(url));
    var q := JoinPath(p, INDEX_NAME);
    var dir := if EndsWith(p, "/") then p else p + "/";
    assert q == dir + "index" + HTML;
    ExtOfSuffix(dir + "index", HTML);
    assert Resolve(p, fs) == q;
    ServesHtml(url, fs, q);
  }

  /** The script goes right before the first `</body>`; anything after it, a second
      `</body>` included, is left alone. */
  lemma InjectBeforeFirst(before: string, after: string)
    requires forall j: nat :: j < |before| ==> !OccursAt(before + BODY_CLOSE, BODY_CLOSE, j)
    ensures Inject(before + BODY_CLOSE + after) == before + SCRIPT + BODY_CLOSE + after
  {
    ReplaceFirstAt(before, BODY_CLOSE, after, SCRIPT + BODY_CLOSE);
  }

  /** HTML without `</body>`, and every other kind of file, is sent as it was read. */
  lemma BodyUnchanged(ext: string, text: string)
    requires ext != HTML || !Contains(text, BODY_CLOSE)
    ensures Body(ext, text) == text
  {
    if ext == HTML {
      ReplaceFirstAbsent(text, BODY_CLOSE, SCRIPT + BODY_CLOSE);
    }
  }
}

=== FILE: frontmatter.dfy ===
/** `parseFrontmatter` (build.js): splits a `---`-delimited header from the body of
    a content file and turns the header lines into key/value fields. */
module Frontmatter {
  import opened Wrappers
  import opened Text

  /** The plain object the parser returns, as a map from property name to value. */
  type Fields = map<string, string>

  const OPEN: string := "---\n"
  const CLOSE: string := "\n---\n"
  const QUOTE: string := "\""
  const COLON: string := ":"
  const NEWLINE: string := "\n"
  /** The property the trimmed body is stored under. */
  const CONTENT: string := "content"
  /** Assigning a string to this property of a plain object is a no-op in JavaScript. */
  const PROTO: string := "__proto__"

  /** The match of `/^---\n([\s\S]*?)\n---\n([\s\S]*)$/`: the header (group 1, lazy)
      and everything after the closing delimiter (group 2). */
  function Delimit(text: string): (r: Option<(string, string)>)
    ensures r.None? <==>
      !StartsWith(text, OPEN) || forall k: nat :: |OPEN| <= k ==> !OccursAt(text, CLOSE, k)
    ensures r.Some? ==> text == OPEN + r.value.0 + CLOSE + r.value.1
    ensures r.Some? ==>
      forall k: nat :: |OPEN| <= k < |OPEN| + |r.value.0| ==> !OccursAt(text, CLOSE, k)
  {
    if !StartsWith(text, OPEN) then None
    else match FindFrom(text, CLOSE, |OPEN|)
      case None => None
      case Some(k) =>
        var header, body := text[|OPEN|..k], text[k + |CLOSE|..];
        assert text == text[..|OPEN|] + header + text[k..k + |CLOSE|] + body;
        Some((header, body))
  }

  /** A header that holds no closing delimiter, not even one running into the
      delimiter that follows it, is recovered whole by `Delimit`. */
  lemma DelimitCompose(header: string, body: string)
    requires forall j: nat :: j < |header| ==> !OccursAt(header + CLOSE, CLOSE, j)
    ensures Delimit(OPEN + header + CLOSE + body) == Some((header, body))
  {
    var text := OPEN + header + CLOSE + body;
    var k := |OPEN| + |header|;
    assert text[..|OPEN|] == OPEN;
    assert text[k..k + |CLOSE|] == CLOSE;
    var tail := text[|OPEN|..];
    assert tail == header + CLOSE + body;
    assert tail[..|header| + |CLOSE|] == header + CLOSE;
    forall j: nat | |OPEN| <= j < k ensures !OccursAt(text, CLOSE, j) {
      OccursAtShift(text, CLOSE, |OPEN|, j - |OPEN|);
      OccursAtPrefix(tail, CLOSE, |header| + |CLOSE|, j - |OPEN|);
    }
    FindFromFirst(text, CLOSE, |OPEN|, k);
    assert text[|OPEN|..k] == header && text[k + |CLOSE|..] == body;
  }

  /** The value with one double quote cut from each end when it both starts and ends
      with one (`value.slice(1, -1)`, which is empty for a lone quote). */
  function Unquote(value: string): (r: string)
    ensures !(StartsWith(value, QUOTE) && EndsWith(value, QUOTE)) ==> r == value
    ensures StartsWith(value, QUOTE) && EndsWith(value, QUOTE) && |value| >= 2 ==>
      value == QUOTE + r + QUOTE
    ensures value == QUOTE ==> r == ""
  {
    if StartsWith(value, QUOTE) && EndsWith(value, QUOTE) then
      if |value| < 2 then "" else value[1..|value| - 1]
    else value
  }

  /** Quoting and unquoting are inverse. */
  lemma UnquoteQuoted(x: string)
    ensures Unquote(QUOTE + x + QUOTE) == x
  {
    var v := QUOTE + x + QUOTE;
    assert StartsWith(v, QUOTE) && EndsWith(v, QUOTE);
    assert v[1..|v| - 1] == x;
  }

  /** One header line: the trimmed text before the first colon is the key, the
      trimmed and unquoted text after it is the value; a line without a colon gives
      nothing. */
  function ParseLine(line: string): Option<(string, string)> {
    match FindFrom(line, COLON, 0)
    case None => None
    case Some(i) => Some((Trim(line[..i]), Unquote(Trim(line[i + 1..]))))
  }

  /** Exactly the lines without a colon are skipped. */
  lemma ParseLineSkips(line: string)
    ensures ParseLine(line).None? <==> !Contains(line, COLON)
  {
  }

  /** Only the first colon splits: everything after it, further colons included, is
      the value. */
  lemma {:induction false} ParseLineFirstColon(key: string, value: string)
    requires !Contains(key, COLON)
    ensures ParseLine(key + COLON + value) == Some((Trim(key), Unquote(Trim(value))))
  {
    var line := key + COLON + value;
    assert OccursAt(line, COLON, |key|);
    forall j: nat | j < |key| ensures !OccursAt(line, COLON, j) {
      assert line[j] == key[j];
      assert !OccursAt(key, COLON, j);
    }
    FindFromFirst(line, COLON, 0, |key|);
    assert line[..|key|] == key && line[|key| + 1..] == value;
  }

  /** The separator `: ` splits like a bare colon. */
  lemma ParseLineBlank(key: string, value: string)
    requires !Contains(key, COLON)
    ensures ParseLine(key + ": " + value) == Some((Trim(key), Unquote(Trim(" " + value))))
  {
    assert key + ": " + value == key + COLON + (" " + value);
    ParseLineFirstColon(key, " " + value);
  }

  /** The line `key: value` written by hand reads back as exactly that pair. */
  lemma ParseLineRoundTrip(key: string, value: string)
    requires !Contains(key, COLON)
    requires key == [] || (!IsSpace(key[0]) && !IsSpace(key[|key| - 1]))
    requires value == [] || (!IsSpace(value[0]) && !IsSpace(value[|value| - 1]))
    requires !(StartsWith(value, QUOTE) && EndsWith(value, QUOTE))
    ensures ParseLine(key + ": " + value) == Some((key, value))
  {
    ParseLineBlank(key, value);
    TrimAfterBlank(value);
    TrimUnpadded(key);
  }

  /** What one header line contributes: a key/value pair, or nothing. */
  type Entry = Option<(string, string)>

  /** The parsed header lines, in order. */
  function HeaderEntries(lines: seq<string>): (entries: seq<Entry>)
    ensures |entries| == |lines|
    ensures forall i :: 0 <= i < |lines| ==> entries[i] == ParseLine(lines[i])
  {
    seq(|lines|, i requires 0 <= i < |lines| => ParseLine(lines[i]))
  }

  /** The assignment `frontmatter[key] = value` for one line. */
  function Assign(fields: Fields, e: Entry): Fields {
    match e
    case None => fields
    case Some(kv) => if kv.0 == PROTO then fields else fields[kv.0 := kv.1]
  }

  /** The fields after the header loop has run over the first `n` entries, in order. */
  function Fold(entries: seq<Entry>, n: nat): Fields
    requires n <= |entries|
  {
    if n == 0 then map[] else Assign(Fold(entries, n - 1), entries[n - 1])
  }

  /** One more line: its assignment, if any, applied to the fields so far. */
  lemma FoldStep(entries: seq<Entry>, i: nat, before: Fields, after: Fields)
    requires i < |entries| && before == Fold(entries, i)
    requires entries[i].Some? && entries[i].value.0 != PROTO ==>
      after == before[entries[i].value.0 := entries[i].value.1]
    requires !(entries[i].Some? && entries[i].value.0 != PROTO) ==> after == before
    ensures after == Fold(entries, i + 1)
  {
  }

  /** The entry assigns the property `key`. */
  predicate Defines(e: Entry, key: string) {
    e.Some? && e.value.0 == key && key != PROTO
  }

  /** A key is present exactly when some line assigns it, and it holds the value of
      the last line that does: a later duplicate overwrites an earlier one. */
  lemma {:induction false} FoldLastWins(entries: seq<Entry>, n: nat, key: string)
    requires n <= |entries|
    ensures key in Fold(entries, n) <==> exists i :: 0 <= i < n && Defines(entries[i], key)
    ensures forall i ::
      (0 <= i < n && Defines(entries[i], key) &&
       forall j :: i < j < n ==> !Defines(entries[j], key)) ==>
        key in Fold(entries, n) && Fold(entries, n)[key] == entries[i].value.1
  {
    if n > 0 {
      FoldLastWins(entries, n - 1, key);
    }
  }

  /** What `parseFrontmatter` returns: `null` when the delimiters are missing,
      otherwise the header fields with `content` set to the trimmed body. */
  function Parse(text: string): (r: Option<Fields>)
    ensures r.None? <==> Delimit(text).None?
    ensures r.Some? ==> CONTENT in r.value && r.value[CONTENT] == Trim(Delimit(text).value.1)
  {
    match Delimit(text)
    case None => None
    case Some((header, body)) => var entries := HeaderEntries(Split(header, NEWLINE));
      Some(Fold(entries, |entries|)[CONTENT := Trim(body)])
  }

  /** The line assigns the property `key`. */
  predicate Assigns(line: string, key: string) {
    Defines(ParseLine(line), key)
  }

  /** Some line assigns the property `key`. */
  predicate Assigned(lines: seq<string>, key: string) {
    exists i :: 0 <= i < |lines| && Assigns(lines[i], key)
  }

  /** Line `i` is the last one that assigns the property `key`. */
  predicate LastAssigns(lines: seq<string>, i: int, key: string) {
    0 <= i < |lines| && Assigns(lines[i], key) &&
    forall j :: i < j < |lines| ==> !Assigns(lines[j], key)
  }

  /** The header loop over lines: a key is present exactly when some line assigns
      it, and it holds the value of the last such line. */
  lemma LinesLastWins(lines: seq<string>, key: string)
    ensures var f := Fold(HeaderEntries(lines), |lines|);
      (key in f <==> Assigned(lines, key)) &&
      forall i :: LastAssigns(lines, i, key) ==> key in f && f[key] == ParseLine(lines[i]).value.1
  {
    var entries := HeaderEntries(lines);
    FoldLastWins(entries, |entries|, key);
  }

  /** Every field but `content` comes from the header lines: it is present exactly
      when some line assigns it, and it holds the value of the last such line. */
  lemma ParseFields(text: string, key: string)
    requires Delimit(text).Some? && key != CONTENT
    ensures var lines, r := Split(Delimit(text).value.0, NEWLINE), Parse(text).value;
      (key in r <==> Assigned(lines, key)) &&
      forall i :: LastAssigns(lines, i, key) ==> key in r && r[key] == ParseLine(lines[i]).value.1
  {
    var header, body := Delimit(text).value.0, Delimit(text).value.1;
    var lines := Split(header, NEWLINE);
    var f := Fold(HeaderEntries(lines), |lines|);
    LinesLastWins(lines, key);
    assert Parse(text).value == f[CONTENT := Trim(body)];
  }

  // ---------------------------------------------------------------------------
  // Writing a file the parser reads back

  /** No white space at either end, so trimming keeps the text. */
  predicate Unpadded(s: string) {
    s == [] || (!IsSpace(s[0]) && !IsSpace(s[|s| - 1]))
  }

  predicate OneLine(s: string) {
    forall i :: 0 <= i < |s| ==> s[i] != '\n'
  }

  /** A key that a `key: value` line gives back as written and assigns. */
  predicate WritableKey(key: string) {
    !Contains(key, COLON) && OneLine(key) && Unpadded(key) && key != PROTO
  }

  /** A value that a `key: value` line gives back as written. */
  predicate WritableValue(value: string) {
    OneLine(value) && Unpadded(value) && !(StartsWith(value, QUOTE) && EndsWith(value, QUOTE))
  }

  predicate Writable(pairs: seq<(string, string)>) {
    forall i :: 0 <= i < |pairs| ==> WritableKey(pairs[i].0) && WritableValue(pairs[i].1)
  }

  function HeaderLine(kv: (string, string)): string {
    kv.0 + ": " + kv.1
  }

  function HeaderLines(pairs: seq<(string, string)>): (r: seq<string>)
    ensures |r| == |pairs|
    ensures forall i :: 0 <= i < |pairs| ==> r[i] == HeaderLine(pairs[i])
  {
    seq(|pairs|, i requires 0 <= i < |pairs| => HeaderLine(pairs[i]))
  }

  /** A content file with one `key: value` header line per pair, in order. */
  function Serialize(pairs: seq<(string, string)>, body: string): string {
    OPEN + Join(HeaderLines(pairs), NEWLINE) + CLOSE + body
  }

  /** The properties the pairs set, a later pair overriding an earlier one. */
  function MapOf(pairs: seq<(string, string)>): Fields {
    if pairs == [] then map[]
    else MapOf(pairs[..|pairs| - 1])[pairs[|pairs| - 1].0 := pairs[|pairs| - 1].1]
  }

  /** A line on its own, with a colon somewhere in it. */
  predicate ColonLine(line: string) {
    OneLine(line) && exists c :: 0 <= c < |line| && line[c] == ':'
  }

  lemma HeaderLineColon(kv: (string, string))
    requires OneLine(kv.0) && OneLine(kv.1)
    ensures ColonLine(HeaderLine(kv))
  {
    var line := HeaderLine(kv);
    assert line[|kv.0|] == ':';
    forall i | 0 <= i < |line| ensures line[i] != '\n' {
      if i < |kv.0| {
        assert line[i] == kv.0[i];
      } else if i >= |kv.0| + 2 {
        assert line[i] == kv.1[i - |kv.0| - 2];
      }
    }
  }

  /** A newline followed by a line with a colon is not the closing delimiter. */
  lemma ColonLineNotClose(line: string, rest: string)
    requires ColonLine(line) && rest != [] && rest[0] == '\n'
    ensures !OccursAt(NEWLINE + line + rest, CLOSE, 0)
  {
    var t := NEWLINE + line + rest;
    if |CLOSE| <= |t| {
      var c :| 0 <= c < |line| && line[c] == ':';
      if c < 3 {
        assert t[..5][1 + c] == line[c] != CLOSE[1 + c];
      } else {
        assert t[..5][4] == line[3] != CLOSE[4];
      }
    }
  }

  /** A single line holds no closing delimiter, which starts with a newline. */
  lemma OneLineNoClose(line: string, rest: string)
    requires OneLine(line)
    ensures forall j: nat :: j < |line| ==> !OccursAt(line + rest, CLOSE, j)
  {
    forall j: nat | j < |line| ensures !OccursAt(line + rest, CLOSE, j) {
      if j + |CLOSE| <= |line + rest| {
        assert (line + rest)[j..j + |CLOSE|][0] == line[j];
      }
    }
  }

  /** One more line in front of a header without a closing delimiter: none appears
      as long as the newline after it does not start one. */
  lemma NoCloseCons(line: string, tail: string)
    requires OneLine(line)
    requires !OccursAt(NEWLINE + tail + CLOSE, CLOSE, 0)
    requires forall j: nat :: j < |tail| ==> !OccursAt(tail + CLOSE, CLOSE, j)
    ensures forall j: nat :: j < |line| + 1 + |tail| ==>
      !OccursAt(line + NEWLINE + tail + CLOSE, CLOSE, j)
  {
    var s := line + NEWLINE + tail + CLOSE;
    OneLineNoClose(line, NEWLINE + tail + CLOSE);
    assert s == line + (NEWLINE + tail + CLOSE);
    assert s[|line|..] == NEWLINE + tail + CLOSE;
    OccursAtShift(s, CLOSE, |line|, 0);
    assert s[|line| + 1..] == tail + CLOSE;
    forall j: nat | |line| < j < |line| + 1 + |tail| ensures !OccursAt(s, CLOSE, j) {
      OccursAtShift(s, CLOSE, |line| + 1, j - |line| - 1);
    }
  }

  /** Header lines with a colon each hold no closing delimiter, not even one running
      into the delimiter that follows them. */
  lemma {:induction false} ColonLinesNoClose(lines: seq<string>)
    requires forall i :: 0 <= i < |lines| ==> ColonLine(lines[i])
    ensures forall j: nat :: j < |Join(lines, NEWLINE)| ==>
      !OccursAt(Join(lines, NEWLINE) + CLOSE, CLOSE, j)
    decreases |lines|
  {
    if |lines| == 1 {
      OneLineNoClose(lines[0], CLOSE);
    } else if |lines| > 1 {
      var rest := lines[1..];
      var tail := Join(rest, NEWLINE);
      ColonLinesNoClose(rest);
      var after := if |rest| == 1 then CLOSE else NEWLINE + Join(rest[1..], NEWLINE) + CLOSE;
      assert NEWLINE + tail + CLOSE == NEWLINE + rest[0] + after;
      ColonLineNotClose(rest[0], after);
      NoCloseCons(lines[0], tail);
      assert Join(lines, NEWLINE) + CLOSE == lines[0] + NEWLINE + tail + CLOSE;
    }
  }

  /** With the header lines parsed back into their pairs, the loop builds the map
      of the pairs. */
  lemma {:induction false} FoldPairs(entries: seq<Entry>, pairs: seq<(string, string)>, n: nat)
    requires |entries| == |pairs| && n <= |pairs|
    requires forall i :: 0 <= i < |pairs| ==> entries[i] == Some(pairs[i]) && pairs[i].0 != PROTO
    ensures Fold(entries, n) == MapOf(pairs[..n])
  {
    if n > 0 {
      FoldPairs(entries, pairs, n - 1);
      assert pairs[..n][..n - 1] == pairs[..n - 1];
    }
  }

  /** The written header is found between the delimiters. */
  lemma SerializeDelimited(pairs: seq<(string, string)>, body: string)
    requires Writable(pairs)
    ensures Delimit(Serialize(pairs, body)) == Some((Join(HeaderLines(pairs), NEWLINE), body))
  {
    var lines := HeaderLines(pairs);
    forall i | 0 <= i < |lines| ensures ColonLine(lines[i]) {
      HeaderLineColon(pairs[i]);
    }
    ColonLinesNoClose(lines);
    DelimitCompose(Join(lines, NEWLINE), body);
  }

  /** The written header splits back into its lines. */
  lemma HeaderLinesSplit(pairs: seq<(string, string)>)
    requires Writable(pairs) && pairs != []
    ensures Split(Join(HeaderLines(pairs), NEWLINE), NEWLINE) == HeaderLines(pairs)
  {
    var lines := HeaderLines(pairs);
    forall i | 0 <= i < |lines| ensures !Contains(lines[i], NEWLINE) {
      HeaderLineColon(pairs[i]);
      forall j: nat | j + 1 <= |lines[i]| ensures !OccursAt(lines[i], NEWLINE, j) {
        assert lines[i][j..j + 1][0] == lines[i][j];
      }
    }
    SplitJoin(lines, NEWLINE);
  }

  /** Each written line parses back into its pair. */
  lemma HeaderLinesEntries(pairs: seq<(string, string)>)
    requires Writable(pairs)
    ensures forall i :: 0 <= i < |pairs| ==> HeaderEntries(HeaderLines(pairs))[i] == Some(pairs[i])
  {
    forall i | 0 <= i < |pairs| ensures HeaderEntries(HeaderLines(pairs))[i] == Some(pairs[i]) {
      ParseLineRoundTrip(pairs[i].0, pairs[i].1);
    }
  }

  /** The written header lines parse back into the map of the pairs. */
  lemma HeaderLinesFold(pairs: seq<(string, string)>)
    requires Writable(pairs)
    ensures var lines := Split(Join(HeaderLines(pairs), NEWLINE), NEWLINE);
      Fold(HeaderEntries(lines), |lines|) == MapOf(pairs)
  {
    if pairs == [] {
      assert Split("", NEWLINE) == [""];
    } else {
      HeaderLinesSplit(pairs);
      HeaderLinesMap(pairs);
    }
  }

  lemma HeaderLinesMap(pairs: seq<(string, string)>)
    requires Writable(pairs)
    ensures Fold(HeaderEntries(HeaderLines(pairs)), |pairs|) == MapOf(pairs)
  {
    HeaderLinesEntries(pairs);
    FoldPairs(HeaderEntries(HeaderLines(pairs)), pairs, |pairs|);
    assert pairs[..|pairs|] == pairs;
  }

  /** A header of `key: value` lines parses back into the properties the lines set,
      and the body comes back trimmed under `content`. */
  lemma ParseSerialize(pairs: seq<(string, string)>, body: string)
    requires Writable(pairs)
    ensures Parse(Serialize(pairs, body)) == Some(MapOf(pairs)[CONTENT := Trim(body)])
  {
    SerializeDelimited(pairs, body);
    HeaderLinesFold(pairs);
  }

  /** A trimmed body comes back as written. */
  lemma ParseSerializeTrimmed(pairs: seq<(string, string)>, body: string)
    requires Writable(pairs) && Unpadded(body)
    ensures Parse(Serialize(pairs, body)) == Some(MapOf(pairs)[CONTENT := body])
  {
    ParseSerialize(pairs, body);
    TrimUnpadded(body);
  }

  /** The body of the header loop for one line: the key is the trimmed text before
      the first colon, the value the trimmed text after it, reassigned without its
      quotes when it is quoted; a line without a colon is skipped. */
  method ReadLine(line: string) returns (entry: Entry)
    ensures entry == ParseLine(line)
  {
    var colonIndex := FindFrom(line, COLON, 0);
    if colonIndex.None? {
      return None;
    }
    var key := Trim(line[..colonIndex.value]);
    var value := Trim(line[colonIndex.value + 1..]);
    ghost var trimmed := value;
    if StartsWith(value, QUOTE) && EndsWith(value, QUOTE) {
      value := if |value| < 2 then "" else value[1..|value| - 1];
    }
    assert value == Unquote(trimmed);
    return Some((key, value));
  }

  /** The header loop of `parseFrontmatter`: each line with a colon is assigned into
      `frontmatter`, in order. */
  method AssignLines(lines: seq<string>) returns (frontmatter: Fields)
    ensures frontmatter == Fold(HeaderEntries(lines), |lines|)
  {
    ghost var entries := HeaderEntries(lines);
    frontmatter := map[];
    var i := 0;
    while i < |lines|
      invariant 0 <= i <= |lines|
      invariant frontmatter == Fold(entries, i)
    {
      var entry := ReadLine(lines[i]);
      ghost var before := frontmatter;
      if entry.Some? && entry.value.0 != PROTO {
        frontmatter := frontmatter[entry.value.0 := entry.value.1];
      }
      FoldStep(entries, i, before, frontmatter);
      i := i + 1;
    }
  }

  /** `parseFrontmatter(content)`: `null` without the delimiters, otherwise the
      header fields and the trimmed body under `content`. */
  method ParseFrontmatter(text: string) returns (r: Option<Fields>)
    ensures r == Parse(text)
  {
    var m := Delimit(text);
    if m.None? {
      return None;
    }
    var header, body := m.value.0, m.value.1;
    var frontmatter := AssignLines(Split(header, NEWLINE));
    return Some(frontmatter[CONTENT := Trim(body)]);
  }
}

=== FILE: render.dfy ===
/** `renderPost` and `renderHome` (build.js): filling the page templates. Placeholders
    in a post page are replaced everywhere, one after the other; the home page's post
    list goes into the first `{{postlist}}` only. */
module Render {
  import opened Text
  import Content

  const TITLE_KEY: string := "title"
  const DESCRIPTION_KEY: string := "description"

  const TITLE: string := "{{title}}"
  const DATE: string := "{{date}}"
  const DESCRIPTION: string := "{{description}}"
  const CONTENT: string := "{{content}}"
  const POSTLIST: string := "{{postlist}}"

  /** A missing property reads as `undefined`, which a template shows as that word. */
  const UNDEFINED: string := "undefined"

  /** `post[key]` as it ends up in the page. */
  function Field(post: Content.Post, key: string): (r: string)
    ensures key in post ==> r == post[key]
    ensures key !in post ==> r == UNDEFINED
  {
    if key in post then post[key] else UNDEFINED
  }

  /** `renderPost(post, template)`: the page of one post. `markdown` stands for the
      Markdown-to-HTML conversion; the post's `content` is always there, as every
      parsed file has one. */
  function RenderPost(post: Content.Post, template: string, markdown: string -> string): string
    requires "content" in post
  {
    var html := markdown(post["content"]);
    ReplaceAll(
      ReplaceAll(
        ReplaceAll(
          ReplaceAll(template, TITLE, Field(post, TITLE_KEY)),
          DATE, Field(post, Content.DATE)),
        DESCRIPTION, Field(post, DESCRIPTION_KEY)),
      CONTENT, html)
  }

  /** No opening brace: no placeholder can occur. */
  predicate Plain(s: string) {
    forall i :: 0 <= i < |s| ==> s[i] != '{'
  }

  lemma PlainLacks(s: string, pat: string)
    requires Plain(s) && |pat| > 0 && pat[0] == '{'
    ensures !Contains(s, pat)
  {
    forall i: nat | i <= |s| ensures !OccursAt(s, pat, i) {
      if i + |pat| <= |s| {
        assert s[i..i + |pat|][0] == s[i];
      }
    }
  }

  lemma {:induction false} PlainJoin(parts: seq<string>, sep: string)
    requires forall i :: 0 <= i < |parts| ==> Plain(parts[i])
    requires Plain(sep)
    ensures Plain(Join(parts, sep))
  {
    if |parts| > 1 {
      PlainJoin(parts[1..], sep);
    }
  }

  /** Global replacement fills every placeholder between plain pieces. */
  lemma {:induction false} ReplaceAllJoin(parts: seq<string>, pat: string, rep: string)
    requires |pat| > 0 && pat[0] == '{'
    requires forall i :: 0 <= i < |parts| ==> Plain(parts[i])
    ensures ReplaceAll(Join(parts, pat), pat, rep) == Join(parts, rep)
  {
    if |parts| == 0 {
    } else if |parts| == 1 {
      PlainLacks(parts[0], pat);
      ReplaceAllAbsent(parts[0], pat, rep);
    } else {
      var a, rest := parts[0], parts[1..];
      forall j: nat | j < |a| ensures !OccursAt(a + pat, pat, j) {
        assert (a + pat)[j..j + |pat|][0] == a[j];
      }
      ReplaceAllAt(a, pat, Join(rest, pat), rep);
      ReplaceAllJoin(rest, pat, rep);
    }
  }

  // ---------------------------------------------------------------------------
  // Templates as pieces

  /** The four placeholders of a post page. */
  datatype Hole = Title | Date | Description | Html

  /** A post template read as plain text and placeholders, in any order and number. */
  datatype Piece = Lit(text: string) | Slot(hole: Hole)

  function Placeholder(h: Hole): (r: string)
    ensures |r| > 3 && r[0] == r[1] == '{' && forall i :: 2 <= i < |r| ==> r[i] != '{'
  {
    match h
    case Title => TITLE
    case Date => DATE
    case Description => DESCRIPTION
    case Html => CONTENT
  }

  function PieceText(p: Piece): string {
    match p
    case Lit(t) => t
    case Slot(h) => Placeholder(h)
  }

  /** The text of a template. */
  function Show(ps: seq<Piece>): string {
    if ps == [] then [] else PieceText(ps[0]) + Show(ps[1..])
  }

  /** Every piece of text outside the placeholders is plain. */
  predicate PlainPieces(ps: seq<Piece>) {
    forall i :: 0 <= i < |ps| && ps[i].Lit? ==> Plain(ps[i].text)
  }

  /** The template with each placeholder `h` turned into the text `v`. */
  function Fill(ps: seq<Piece>, h: Hole, v: string): (r: seq<Piece>)
    ensures |r| == |ps|
    ensures forall i :: 0 <= i < |ps| ==> r[i] == if ps[i] == Slot(h) then Lit(v) else ps[i]
  {
    seq(|ps|, i requires 0 <= i < |ps| => if ps[i] == Slot(h) then Lit(v) else ps[i])
  }

  /** No placeholder starts inside another one. */
  lemma PlaceholderApart(g: Hole, h: Hole, x: string)
    requires g != h
    ensures forall j: nat :: j < |Placeholder(g)| ==> !OccursAt(Placeholder(g) + x, Placeholder(h), j)
  {
    var q, p := Placeholder(g), Placeholder(h);
    forall j: nat | j < |q| ensures !OccursAt(q + x, p, j) {
      if j + |p| <= |q + x| {
        var w := (q + x)[j..j + |p|];
        if j == 0 {
          assert w[3] == q[3] != p[3];
        } else if j == 1 {
          assert w[1] == q[2] != p[1];
        } else {
          assert w[0] == q[j] != p[0];
        }
      }
    }
  }

  /** A piece that is not the placeholder being filled holds no occurrence of it. */
  lemma ShowFillKeep(p: Piece, rest: string, h: Hole, v: string)
    requires p != Slot(h) && (p.Lit? ==> Plain(p.text))
    ensures ReplaceAll(PieceText(p) + rest, Placeholder(h), v)
         == PieceText(p) + ReplaceAll(rest, Placeholder(h), v)
  {
    var x, pat := PieceText(p), Placeholder(h);
    if p.Lit? {
      forall j: nat | j < |x| ensures !OccursAt(x + rest, pat, j) {
        if j + |pat| <= |x + rest| {
          assert (x + rest)[j..j + |pat|][0] == x[j];
        }
      }
    } else {
      PlaceholderApart(p.hole, h, rest);
    }
    ReplaceAllSkip(x, rest, pat, v);
  }

  lemma {:induction false} ShowFill(ps: seq<Piece>, h: Hole, v: string)
    requires PlainPieces(ps)
    ensures ReplaceAll(Show(ps), Placeholder(h), v) == Show(Fill(ps, h, v))
    decreases |ps|
  {
    if ps != [] {
      var rest := ps[1..];
      assert PlainPieces(rest) by {
        forall i | 0 <= i < |rest| && rest[i].Lit? ensures Plain(rest[i].text) {
          assert rest[i] == ps[i + 1];
        }
      }
      ShowFill(rest, h, v);
      var filled := Fill(ps, h, v);
      var pat := Placeholder(h);
      var tail := ReplaceAll(Show(rest), pat, v);
      assert filled[1..] == Fill(rest, h, v);
      assert Show(ps) == PieceText(ps[0]) + Show(rest);
      assert Show(filled) == PieceText(filled[0]) + Show(filled[1..]);
      if ps[0] == Slot(h) {
        ReplaceAllHead(pat, Show(rest), v);
        assert PieceText(filled[0]) == v;
      } else {
        ShowFillKeep(ps[0], Show(rest), h, v);
        assert ReplaceAll(Show(ps), pat, v) == PieceText(ps[0]) + tail;
        assert filled[0] == ps[0];
      }
    }
  }

  /** Filling a placeholder with plain text leaves the template plain. */
  lemma FillPlain(ps: seq<Piece>, h: Hole, v: string)
    requires PlainPieces(ps) && Plain(v)
    ensures PlainPieces(Fill(ps, h, v))
  {
  }

  /** What a placeholder of a post page is filled with. */
  function Value(post: Content.Post, h: Hole, markdown: string -> string): string
    requires "content" in post
  {
    match h
    case Title => Field(post, TITLE_KEY)
    case Date => Field(post, Content.DATE)
    case Description => Field(post, DESCRIPTION_KEY)
    case Html => markdown(post["content"])
  }

  /** The template with every placeholder turned into its value. */
  function Filled(ps: seq<Piece>, post: Content.Post, markdown: string -> string): (r: seq<Piece>)
    requires "content" in post
    ensures |r| == |ps|
  {
    seq(|ps|, i requires 0 <= i < |ps| =>
      match ps[i] case Lit(_) => ps[i] case Slot(h) => Lit(Value(post, h, markdown)))
  }

  /** Filling the four placeholders one after the other fills each with its value. */
  lemma FillFour(ps: seq<Piece>, post: Content.Post, markdown: string -> string)
    requires "content" in post
    ensures Fill(Fill(Fill(Fill(ps, Title, Value(post, Title, markdown)),
                                Date, Value(post, Date, markdown)),
                           Description, Value(post, Description, markdown)),
                 Html, Value(post, Html, markdown))
         == Filled(ps, post, markdown)
  {
  }

  /** Every placeholder of a template is filled with its own field: with plain text
      around the placeholders and plain title, date and description, the page is the
      template with each `{{title}}`, `{{date}}`, `{{description}}` and `{{content}}`
      replaced by the post's title, date, description and HTML. */
  lemma RenderPostFills(post: Content.Post, ps: seq<Piece>, markdown: string -> string)
    requires "content" in post && PlainPieces(ps)
    requires Plain(Field(post, TITLE_KEY)) && Plain(Field(post, Content.DATE))
    requires Plain(Field(post, DESCRIPTION_KEY))
    ensures RenderPost(post, Show(ps), markdown) == Show(Filled(ps, post, markdown))
  {
    var title, date := Value(post, Title, markdown), Value(post, Date, markdown);
    var description, html := Value(post, Description, markdown), Value(post, Html, markdown);
    var ps1 := Fill(ps, Title, title);
    ShowFill(ps, Title, title);
    FillPlain(ps, Title, title);
    var ps2 := Fill(ps1, Date, date);
    ShowFill(ps1, Date, date);
    FillPlain(ps1, Date, date);
    var ps3 := Fill(ps2, Description, description);
    ShowFill(ps2, Description, description);
    FillPlain(ps2, Description, description);
    ShowFill(ps3, Html, html);
    var t1 := ReplaceAll(Show(ps), TITLE, title);
    assert t1 == Show(ps1);
    var t2 := ReplaceAll(t1, DATE, date);
    assert t2 == Show(ps2);
    var t3 := ReplaceAll(t2, DESCRIPTION, description);
    assert t3 == Show(ps3);
    assert RenderPost(post, Show(ps), markdown) == ReplaceAll(t3, CONTENT, html);
    FillFour(ps, post, markdown);
  }

  /** The replacements run in order over the text so far: a title that reads
      `{{date}}` becomes the post's date. */
  lemma RenderPostCascade(post: Content.Post, markdown: string -> string)
    requires "content" in post
    requires Field(post, TITLE_KEY) == DATE
    requires Plain(Field(post, Content.DATE))
    ensures RenderPost(post, TITLE, markdown) == Field(post, Content.DATE)
  {
    var date := Field(post, Content.DATE);
    assert TITLE == [] + TITLE + [];
    ReplaceAllAt([], TITLE, [], DATE);
    assert ReplaceAll([], TITLE, DATE) == [];
    assert ReplaceAll(TITLE, TITLE, DATE) == DATE;
    assert DATE == [] + DATE + [];
    ReplaceAllAt([], DATE, [], date);
    assert ReplaceAll([], DATE, date) == [];
    assert ReplaceAll(DATE, DATE, date) == date;
    PlainLacks(date, DESCRIPTION);
    ReplaceAllAbsent(date, DESCRIPTION, Field(post, DESCRIPTION_KEY));
    PlainLacks(date, CONTENT);
    ReplaceAllAbsent(date, CONTENT, markdown(post["content"]));
  }

  /** A template without placeholders is the page as it stands, braces of inline
      CSS or script included. */
  lemma RenderPostPlain(post: Content.Post, template: string, markdown: string -> string)
    requires "content" in post
    requires !Contains(template, TITLE) && !Contains(template, DATE)
    requires !Contains(template, DESCRIPTION) && !Contains(template, CONTENT)
    ensures RenderPost(post, template, markdown) == template
  {
    ReplaceAllAbsent(template, TITLE, Field(post, TITLE_KEY));
    ReplaceAllAbsent(template, DATE, Field(post, Content.DATE));
    ReplaceAllAbsent(template, DESCRIPTION, Field(post, DESCRIPTION_KEY));
    ReplaceAllAbsent(template, CONTENT, markdown(post["content"]));
  }

  // ---------------------------------------------------------------------------
  // Home page

  /** The list item for one post, linking to its page. */
  function Item(post: Content.Post): string {
    "    <li class=\"post-list-item\">\n      <a href=\"/" + Field(post, Content.SLUG) + ".html\">"
    + Field(post, TITLE_KEY) + "</a>\n      <div class=\"post-meta\">" + Field(post, Content.DATE)
    + "</div>\n    </li>"
  }

  function Items(posts: seq<Content.Post>): (r: seq<string>)
    ensures |r| == |posts|
    ensures forall i :: 0 <= i < |posts| ==> r[i] == Item(posts[i])
  {
    seq(|posts|, i requires 0 <= i < |posts| => Item(posts[i]))
  }

  /** The post list: one item per post, in collection order, joined by newlines. */
  function PostList(posts: seq<Content.Post>): string {
    Join(Items(posts), "\n")
  }

  /** The list of a collection is the list of its first part, a newline, and the list
      of the rest. */
  lemma PostListAppend(a: seq<Content.Post>, b: seq<Content.Post>)
    requires |a| >= 1 && |b| >= 1
    ensures PostList(a + b) == PostList(a) + "\n" + PostList(b)
  {
    assert Items(a + b) == Items(a) + Items(b);
    JoinAppend(Items(a), Items(b), "\n");
  }

  /** `renderHome(posts)` given the text of `home.html`. */
  function RenderHome(posts: seq<Content.Post>, home: string): string {
    ReplaceFirst(home, POSTLIST, PostList(posts))
  }

  /** The first `{{postlist}}` receives the list; anything after it, further
      placeholders included, is kept as written. */
  lemma RenderHomeFirstOnly(posts: seq<Content.Post>, before: string, after: string)
    requires forall j: nat :: j < |before| ==> !OccursAt(before + POSTLIST, POSTLIST, j)
    ensures RenderHome(posts, before + POSTLIST + after) == before + PostList(posts) + after
  {
    ReplaceFirstAt(before, POSTLIST, after, PostList(posts));
  }

  /** The list of a single post is its item, so a one-post home page holds exactly
      that item in place of the placeholder. */
  lemma PostListOne(post: Content.Post)
    ensures PostList([post]) == Item(post)
  {
    assert Items([post]) == [Item(post)];
  }

  /** A home template without `{{postlist}}` is served as it stands. */
  lemma RenderHomeWithoutList(posts: seq<Content.Post>, home: string)
    requires !Contains(home, POSTLIST)
    ensures RenderHome(posts, home) == home
  {
  }
}

=== FILE: slug.dfy ===
/** `slugify` (build.js): a content file name turned into the page name its post is
    written under. */
module Slug {
  import opened Text

  const MD: string := ".md"
  const DASH: char := '-'

  /** The characters `[a-z0-9]`, the complement of the class `[^a-z0-9]`. */
  predicate IsAlnum(c: char) {
    ('a' <= c <= 'z') || ('0' <= c <= '9')
  }

  /** A normal slug: only `[a-z0-9-]`, no dash at either end, no two dashes in a row. */
  ghost predicate IsSlug(s: string) {
    && (forall i :: 0 <= i < |s| ==> IsAlnum(s[i]) || s[i] == DASH)
    && (s == [] || (s[0] != DASH && s[|s| - 1] != DASH))
    && NoDoubleDash(s)
  }

  /** No two dashes in a row. */
  ghost predicate NoDoubleDash(s: string) {
    forall i, j :: 0 <= i < j < |s| && j == i + 1 ==> !(s[i] == DASH && s[j] == DASH)
  }

  /** `.replace(/\.md$/, "")`: one trailing `.md` removed. */
  function StripMd(name: string): (r: string)
    ensures EndsWith(name, MD) ==> name == r + MD
    ensures !EndsWith(name, MD) ==> r == name
  {
    if EndsWith(name, MD) then name[..|name| - |MD|] else name
  }

  /** `toLowerCase` on one character, for the ASCII letters. */
  function LowerChar(c: char): char {
    if 'A' <= c <= 'Z' then (c as int - 'A' as int + 'a' as int) as char else c
  }

  function Lower(s: string): (r: string)
    ensures |r| == |s|
    ensures forall i :: 0 <= i < |s| ==> r[i] == LowerChar(s[i])
  {
    seq(|s|, i requires 0 <= i < |s| => LowerChar(s[i]))
  }

  /** `.replace(/[^a-z0-9]+/g, "-")`: every maximal run of other characters becomes
      one dash; `inRun` says the character before `s` already belonged to such a run. */
  function Collapse(s: string, inRun: bool): (r: string)
    ensures forall i :: 0 <= i < |r| ==> IsAlnum(r[i]) || r[i] == DASH
    ensures NoDoubleDash(r)
    ensures inRun && r != [] ==> r[0] != DASH
    decreases |s|
  {
    if s == [] then []
    else if IsAlnum(s[0]) then [s[0]] + Collapse(s[1..], false)
    else if inRun then Collapse(s[1..], true)
    else [DASH] + Collapse(s[1..], true)
  }

  /** `.replace(/^-|-$/g, "")`: a dash at the start and a dash at the end removed. */
  function TrimDashes(s: string): (r: string)
    ensures var a := if |s| > 0 && s[0] == DASH then 1 else 0;
      var b := if |s| > a && s[|s| - 1] == DASH then 1 else 0;
      r == s[a..|s| - b]
    ensures (s == [] || (s[0] != DASH && s[|s| - 1] != DASH)) ==> r == s
  {
    var t := if s != [] && s[0] == DASH then s[1..] else s;
    if t != [] && t[|t| - 1] == DASH then t[..|t| - 1] else t
  }

  /** `slugify(filename)`. */
  function Slugify(name: string): string {
    TrimDashes(Collapse(Lower(StripMd(name)), false))
  }

  /** Slug characters without two dashes in a row: the characters Collapse produces. */
  ghost predicate Collapsed(s: string) {
    (forall i :: 0 <= i < |s| ==> IsAlnum(s[i]) || s[i] == DASH) && NoDoubleDash(s)
  }

  lemma CollapsedSlice(s: string, lo: nat, hi: nat)
    requires Collapsed(s) && lo <= hi <= |s|
    ensures Collapsed(s[lo..hi])
  {
    var t := s[lo..hi];
    assert forall i :: 0 <= i < |t| ==> t[i] == s[lo + i];
  }

  /** Cutting the edge dashes of a collapsed string leaves a normal slug. */
  lemma TrimDashesNormal(c: string)
    requires Collapsed(c)
    ensures IsSlug(TrimDashes(c))
  {
    var t := if c != [] && c[0] == DASH then c[1..] else c;
    CollapsedSlice(c, |c| - |t|, |c|);
    if |t| >= 1 && t != c {
      assert t[0] == c[1];
    }
    if t != [] && t[|t| - 1] == DASH {
      CollapsedSlice(t, 0, |t| - 1);
      if |t| >= 2 {
        assert t[|t| - 2] != DASH;
      }
    }
  }

  /** Every slug is normal: `[a-z0-9]` runs separated by single dashes. */
  lemma SlugifyNormal(name: string)
    ensures IsSlug(Slugify(name))
  {
    TrimDashesNormal(Collapse(Lower(StripMd(name)), false));
  }

  /** The letters and digits of `s`, in order. */
  function Alnums(s: string): string {
    if s == [] then []
    else (if IsAlnum(s[0]) then [s[0]] else []) + Alnums(s[1..])
  }

  lemma {:induction false} AlnumsAppend(a: string, b: string)
    ensures Alnums(a + b) == Alnums(a) + Alnums(b)
  {
    if a != [] {
      var head := if IsAlnum(a[0]) then [a[0]] else [];
      assert (a + b)[0] == a[0] && (a + b)[1..] == a[1..] + b;
      assert Alnums(a + b) == head + Alnums(a[1..] + b);
      AlnumsAppend(a[1..], b);
      assert Alnums(a) == head + Alnums(a[1..]);
    } else {
      assert a + b == b;
    }
  }

  lemma {:induction false} CollapseKeepsAlnums(s: string, inRun: bool)
    ensures Alnums(Collapse(s, inRun)) == Alnums(s)
    decreases |s|
  {
    if s != [] {
      CollapseKeepsAlnums(s[1..], !IsAlnum(s[0]));
      var rest := Collapse(s[1..], !IsAlnum(s[0]));
      if IsAlnum(s[0]) || !inRun {
        AlnumsAppend([Collapse(s, inRun)[0]], rest);
      }
    }
  }

  lemma TrimDashesKeepsAlnums(s: string)
    ensures Alnums(TrimDashes(s)) == Alnums(s)
  {
    var t := if s != [] && s[0] == DASH then s[1..] else s;
    if s != [] && s[0] == DASH {
      assert s == [DASH] + t;
      AlnumsAppend([DASH], t);
    }
    if t != [] && t[|t| - 1] == DASH {
      assert t == t[..|t| - 1] + [DASH];
      AlnumsAppend(t[..|t| - 1], [DASH]);
    }
  }

  /** The slug keeps every letter and digit of the lower-cased name, in order, and
      nothing else of it but the dashes that separate them. */
  lemma SlugifyKeepsAlnums(name: string)
    ensures Alnums(Slugify(name)) == Alnums(Lower(StripMd(name)))
  {
    var c := Collapse(Lower(StripMd(name)), false);
    CollapseKeepsAlnums(Lower(StripMd(name)), false);
    TrimDashesKeepsAlnums(c);
  }

  /** A run of slug characters with no two dashes in a row collapses to itself. */
  lemma {:induction false} CollapseSlugChars(s: string, inRun: bool)
    requires forall i :: 0 <= i < |s| ==> IsAlnum(s[i]) || s[i] == DASH
    requires NoDoubleDash(s)
    requires s != [] ==> !(inRun && s[0] == DASH)
    ensures Collapse(s, inRun) == s
    decreases |s|
  {
    if s != [] {
      CollapseSlugChars(s[1..], !IsAlnum(s[0]));
    }
  }

  /** A string of slug characters has no `.md` to strip and no capital to lower. */
  lemma SlugCharsUnchanged(s: string)
    requires forall i :: 0 <= i < |s| ==> IsAlnum(s[i]) || s[i] == DASH
    ensures StripMd(s) == s && Lower(s) == s
  {
    if |MD| <= |s| {
      assert s[|s| - |MD|..][0] == s[|s| - |MD|];
    }
  }

  /** Normal slugs are left alone. */
  lemma SlugifySlug(s: string)
    requires IsSlug(s)
    ensures Slugify(s) == s
  {
    SlugCharsUnchanged(s);
    CollapseSlugChars(s, false);
  }

  /** `slugify` is idempotent. */
  lemma SlugifyIdempotent(name: string)
    ensures Slugify(Slugify(name)) == Slugify(name)
  {
    SlugifyNormal(name);
    SlugifySlug(Slugify(name));
  }

  // ---------------------------------------------------------------------------
  // The slug in words

  predicate AllAlnum(w: string) {
    forall i :: 0 <= i < |w| ==> IsAlnum(w[i])
  }

  /** The maximal runs of `[a-z0-9]` in `s`, in order: a letter or digit followed by
      another one extends the run that the second one starts. */
  function Words(s: string): (r: seq<string>)
    ensures forall i :: 0 <= i < |r| ==> r[i] != [] && AllAlnum(r[i])
    ensures r == [] <==> forall i :: 0 <= i < |s| ==> !IsAlnum(s[i])
    decreases |s|
  {
    if s == [] then []
    else
      var w := Words(s[1..]);
      if !IsAlnum(s[0]) then
        assert forall i :: 1 <= i < |s| ==> s[i] == s[1..][i - 1];
        w
      else if |s| > 1 && IsAlnum(s[1]) then
        assert s[1..][0] == s[1];
        [[s[0]] + w[0]] + w[1..]
      else [[s[0]]] + w
  }

  /** The words hold every letter and digit of `s`, each once and in order: joined
      without a separator they are exactly the text's letters and digits. */
  lemma {:induction false} WordsAlnums(s: string)
    ensures Join(Words(s), "") == Alnums(s)
    decreases |s|
  {
    if s != [] {
      var w := Words(s[1..]);
      WordsAlnums(s[1..]);
      if IsAlnum(s[0]) {
        assert Alnums(s) == [s[0]] + Alnums(s[1..]);
        if |s| > 1 && IsAlnum(s[1]) {
          assert s[1..][0] == s[1];
          JoinExtendHead(s[0], w, "");
        } else if w != [] {
          JoinCons([s[0]], w, "");
        }
      }
    }
  }

  /** The dash `Collapse` puts for a run of other characters at the start of `s`,
      unless such a run is already open. */
  function Lead(s: string, inRun: bool): string {
    if s != [] && !IsAlnum(s[0]) && !inRun then [DASH] else []
  }

  /** The dash `Collapse` puts for a run of other characters after the last word. */
  function Trail(s: string): string {
    if s != [] && Words(s) != [] && !IsAlnum(s[|s| - 1]) then [DASH] else []
  }

  /** A first word that gains a letter in front: the joined words gain it too. */
  lemma JoinExtendHead(c: char, w: seq<string>, sep: string)
    requires w != []
    ensures Join([[c] + w[0]] + w[1..], sep) == [c] + Join(w, sep)
  {
    if |w| > 1 {
      JoinCons([c] + w[0], w[1..], sep);
      JoinCons(w[0], w[1..], sep);
      assert w == [w[0]] + w[1..];
    }
  }

  /** The last word of `s` and of its tail end at the same place. */
  lemma TrailTail(s: string)
    requires |s| > 1 && (Words(s) == [] <==> Words(s[1..]) == [])
    ensures Trail(s) == Trail(s[1..])
  {
    assert s[|s| - 1] == s[1..][|s| - 2];
  }

  /** A letter or digit that ends `s`, or is followed by another one. */
  lemma CollapseJoinsWord(s: string, inRun: bool)
    requires s != [] && IsAlnum(s[0]) && (|s| == 1 || IsAlnum(s[1]))
    requires Collapse(s[1..], false) == Lead(s[1..], false) + Join(Words(s[1..]), [DASH]) + Trail(s[1..])
    ensures Collapse(s, inRun) == Lead(s, inRun) + Join(Words(s), [DASH]) + Trail(s)
  {
    var c, t := s[0], s[1..];
    if t == [] {
      assert Words(s) == [[c]];
    } else {
      var w := Words(t);
      assert Lead(t, false) == [];
      assert Words(s) == [[c] + w[0]] + w[1..];
      JoinExtendHead(c, w, [DASH]);
      TrailTail(s);
    }
  }

  /** A letter or digit followed by another character. */
  lemma CollapseEndsWord(s: string, inRun: bool)
    requires |s| > 1 && IsAlnum(s[0]) && !IsAlnum(s[1])
    requires Collapse(s[1..], false) == Lead(s[1..], false) + Join(Words(s[1..]), [DASH]) + Trail(s[1..])
    ensures Collapse(s, inRun) == Lead(s, inRun) + Join(Words(s), [DASH]) + Trail(s)
  {
    var c, t := s[0], s[1..];
    var w := Words(t);
    assert Lead(t, false) == [DASH];
    assert Words(s) == [[c]] + w;
    if w == [] {
      assert s[|s| - 1] == t[|t| - 1];
      assert Trail(s) == [DASH] && Trail(t) == [];
    } else {
      JoinCons([c], w, [DASH]);
      TrailTail(s);
    }
  }

  /** One step of `CollapseWords` past any other character. */
  lemma CollapseOtherStep(s: string, inRun: bool)
    requires s != [] && !IsAlnum(s[0])
    requires Collapse(s[1..], true) == Lead(s[1..], true) + Join(Words(s[1..]), [DASH]) + Trail(s[1..])
    ensures Collapse(s, inRun) == Lead(s, inRun) + Join(Words(s), [DASH]) + Trail(s)
  {
    assert Words(s) == Words(s[1..]);
    if |s| > 1 {
      TrailTail(s);
    }
  }

  /** `Collapse` is a dash for a leading run, the words joined by single dashes, and a
      dash for a trailing run: each run of other characters becomes exactly one dash. */
  lemma {:induction false} CollapseWords(s: string, inRun: bool)
    ensures Collapse(s, inRun) == Lead(s, inRun) + Join(Words(s), [DASH]) + Trail(s)
    decreases |s|
  {
    if s != [] {
      CollapseWords(s[1..], !IsAlnum(s[0]));
      if IsAlnum(s[0]) && (|s| == 1 || IsAlnum(s[1])) {
        CollapseJoinsWord(s, inRun);
      } else if IsAlnum(s[0]) {
        CollapseEndsWord(s, inRun);
      } else {
        CollapseOtherStep(s, inRun);
      }
    }
  }

  /** Joined words start and end with a letter or digit. */
  lemma {:induction false} JoinWordsEdges(w: seq<string>)
    requires w != [] && forall i :: 0 <= i < |w| ==> w[i] != [] && AllAlnum(w[i])
    ensures var j := Join(w, [DASH]); j != [] && IsAlnum(j[0]) && IsAlnum(j[|j| - 1])
    decreases |w|
  {
    if |w| > 1 {
      JoinWordsEdges(w[1..]);
    }
  }

  /** Trimming drops the single dashes around a text that starts and ends with a
      letter or digit. */
  lemma TrimFramed(lead: string, j: string, trail: string)
    requires lead == [] || lead == [DASH]
    requires trail == [] || trail == [DASH]
    requires j != [] && IsAlnum(j[0]) && IsAlnum(j[|j| - 1])
    ensures TrimDashes(lead + j + trail) == j
  {
    var c := lead + j + trail;
    assert c[0] == DASH <==> lead != [];
    assert c[|c| - 1] == DASH <==> trail != [];
    assert c[|lead|..|c| - |trail|] == j;
  }

  /** The slug is the words of the lower-cased name, without `.md`, joined by single
      dashes: `Hello, World.md` becomes `hello-world`. */
  lemma SlugifyWords(name: string)
    ensures Slugify(name) == Join(Words(Lower(StripMd(name))), [DASH])
  {
    var s := Lower(StripMd(name));
    var w := Words(s);
    CollapseWords(s, false);
    if w == [] {
      assert Collapse(s, false) == Lead(s, false);
    } else {
      JoinWordsEdges(w);
      TrimFramed(Lead(s, false), Join(w, [DASH]), Trail(s));
    }
  }

  /** Naming a file after its slug gives the same slug back. */
  lemma SlugifyFileName(name: string)
    ensures Slugify(Slugify(name) + MD) == Slugify(name)
  {
    var y := Slugify(name);
    SlugifyNormal(name);
    SlugCharsUnchanged(y);
    assert EndsWith(y + MD, MD);
    assert StripMd(y + MD) == y;
    SlugifySlug(y);
  }
}

=== FILE: text.dfy ===
/** The JavaScript string operations the blog generator relies on, over `string`
    (a sequence of UTF-16-agnostic characters): prefix and suffix tests, substring
    search, `trim`, `split`, `join`, and `replace` with a literal pattern, either
    global (a regular expression with the `g` flag) or first-only (a string pattern). */
module Text {
  import opened Wrappers

  /** The ECMAScript WhiteSpace and LineTerminator code points, the characters that
      `String.prototype.trim` removes. */
  predicate IsSpace(c: char) {
    || c == '\t' || c == '\n' || c == '\U{000B}' || c == '\U{000C}' || c == '\r' || c == ' '
    || c == '\U{00A0}' || c == '\U{1680}' || ('\U{2000}' <= c <= '\U{200A}')
    || c == '\U{2028}' || c == '\U{2029}' || c == '\U{202F}' || c == '\U{205F}'
    || c == '\U{3000}' || c == '\U{FEFF}'
  }

  predicate StartsWith(s: string, p: string) {
    |p| <= |s| && s[..|p|] == p
  }

  predicate EndsWith(s: string, p: string) {
    |p| <= |s| && s[|s| - |p|..] == p
  }

  /** `p` occurs in `s` starting at index `i`. */
  predicate OccursAt(s: string, p: string, i: nat) {
    i + |p| <= |s| && s[i..i + |p|] == p
  }

  predicate Contains(s: string, p: string) {
    exists i: nat | i <= |s| :: OccursAt(s, p, i)
  }

  /** `s.indexOf(p, from)`: the first index at or after `from` where `p` occurs. */
  function FindFrom(s: string, p: string, from: nat): (r: Option<nat>)
    ensures r.Some? ==> from <= r.value && OccursAt(s, p, r.value)
    ensures forall j: nat :: from <= j && (r.None? || j < r.value) ==> !OccursAt(s, p, j)
    decreases |s| - from
  {
    if |s| < from + |p| then None
    else if OccursAt(s, p, from) then Some(from)
    else FindFrom(s, p, from + 1)
  }

  /** Any occurrence with no earlier one at or after `from` is the one `FindFrom` finds. */
  lemma {:induction false} FindFromFirst(s: string, p: string, from: nat, k: nat)
    requires from <= k && OccursAt(s, p, k)
    requires forall j: nat :: from <= j < k ==> !OccursAt(s, p, j)
    ensures FindFrom(s, p, from) == Some(k)
    decreases k - from
  {
    if from < k {
      FindFromFirst(s, p, from + 1, k);
    }
  }

  lemma OccursAtShift(s: string, p: string, n: nat, j: nat)
    requires n <= |s|
    ensures OccursAt(s[n..], p, j) <==> OccursAt(s, p, n + j)
  {
    if n + j + |p| <= |s| {
      assert s[n..][j..j + |p|] == s[n + j..n + j + |p|];
    }
  }

  lemma OccursAtPrefix(s: string, p: string, n: nat, j: nat)
    requires n <= |s| && j + |p| <= n
    ensures OccursAt(s[..n], p, j) <==> OccursAt(s, p, j)
  {
    assert s[..n][j..j + |p|] == s[j..j + |p|];
  }

  // ---------------------------------------------------------------------------
  // trim

  /** The index of the first character at or after `i` that is not whitespace, or
      `|s|` when there is none. */
  function SkipSpace(s: string, i: nat): (n: nat)
    requires i <= |s|
    ensures i <= n <= |s|
    ensures forall k :: i <= k < n ==> IsSpace(s[k])
    ensures n < |s| ==> !IsSpace(s[n])
    decreases |s| - i
  {
    if i < |s| && IsSpace(s[i]) then SkipSpace(s, i + 1) else i
  }

  /** The index just past the last character before `j` that is not whitespace, or
      `0` when there is none. */
  function SkipSpaceBack(s: string, j: nat): (n: nat)
    requires j <= |s|
    ensures n <= j
    ensures forall k :: n <= k < j ==> IsSpace(s[k])
    ensures n > 0 ==> !IsSpace(s[n - 1])
  {
    if j > 0 && IsSpace(s[j - 1]) then SkipSpaceBack(s, j - 1) else j
  }

  function TrimStart(s: string): (r: string)
    ensures |r| <= |s| && forall k :: 0 <= k < |r| ==> r[k] == s[|s| - |r| + k]
    ensures forall k :: 0 <= k < |s| - |r| ==> IsSpace(s[k])
    ensures r == [] || !IsSpace(r[0])
  {
    s[SkipSpace(s, 0)..]
  }

  function TrimEnd(s: string): (r: string)
    ensures |r| <= |s| && forall k :: 0 <= k < |r| ==> r[k] == s[k]
    ensures forall k :: |r| <= k < |s| ==> IsSpace(s[k])
    ensures r == [] || !IsSpace(r[|r| - 1])
  {
    s[..SkipSpaceBack(s, |s|)]
  }

  /** `r` is what is left of `s` once `a` leading and `|s| - a - |r|` trailing
      whitespace characters are cut off, and `r` has no whitespace at either end. */
  ghost predicate IsTrimOf(r: string, s: string, a: nat) {
    && a + |r| <= |s| && s[a..a + |r|] == r
    && (forall k :: 0 <= k < a ==> IsSpace(s[k]))
    && (forall k :: a + |r| <= k < |s| ==> IsSpace(s[k]))
    && (r == [] || (!IsSpace(r[0]) && !IsSpace(r[|r| - 1])))
  }

  /** `s.trim()`. */
  function Trim(s: string): (r: string)
    ensures r == [] || (!IsSpace(r[0]) && !IsSpace(r[|r| - 1]))
  {
    TrimEnd(TrimStart(s))
  }

  /** `trim` cuts whitespace, and only whitespace, from both ends. */
  lemma TrimShape(s: string)
    ensures exists a: nat :: IsTrimOf(Trim(s), s, a)
  {
    var t := TrimStart(s);
    var r := TrimEnd(t);
    var a := |s| - |t|;
    assert s[a..a + |r|] == r by {
      forall k | 0 <= k < |r| ensures s[a..a + |r|][k] == r[k] {
        assert r[k] == t[k] == s[a + k];
      }
    }
    forall k | a + |r| <= k < |s| ensures IsSpace(s[k]) {
      assert s[k] == t[k - a];
    }
    assert r == Trim(s);
    assert IsTrimOf(r, s, a);
  }

  /** A string with no whitespace at either end is its own trim. */
  lemma TrimUnpadded(s: string)
    requires s == [] || (!IsSpace(s[0]) && !IsSpace(s[|s| - 1]))
    ensures Trim(s) == s
  {
  }

  /** Whitespace padding on either side is exactly what `trim` takes away. */
  lemma {:induction false} TrimPadded(pre: string, s: string, post: string)
    requires forall k :: 0 <= k < |pre| ==> IsSpace(pre[k])
    requires forall k :: 0 <= k < |post| ==> IsSpace(post[k])
    requires s == [] || (!IsSpace(s[0]) && !IsSpace(s[|s| - 1]))
    ensures Trim(pre + s + post) == s
  {
    var w := pre + s + post;
    var r := Trim(w);
    TrimShape(w);
    var a: nat :| IsTrimOf(r, w, a);
    if s == [] {
      assert r == [];
    } else {
      assert w[|pre|] == s[0] && w[|pre| + |s| - 1] == s[|s| - 1];
      assert a == |pre|;
      assert a + |r| == |pre| + |s|;
      assert w[a..a + |r|] == s;
    }
  }

  lemma TrimAfterBlank(s: string)
    requires s == [] || (!IsSpace(s[0]) && !IsSpace(s[|s| - 1]))
    ensures Trim(" " + s) == s
  {
    assert " " + s == " " + s + "";
    TrimPadded(" ", s, "");
  }

  // ---------------------------------------------------------------------------
  // split and join

  /** `s.split(sep)` for a non-empty string separator: the pieces between
      successive leftmost occurrences of `sep`. */
  function Split(s: string, sep: string): (parts: seq<string>)
    requires |sep| > 0
    ensures |parts| >= 1
    ensures forall i :: 0 <= i < |parts| ==> !Contains(parts[i], sep)
    decreases |s|
  {
    match FindFrom(s, sep, 0)
    case None => [s]
    case Some(i) =>
      var head := s[..i];
      assert !Contains(head, sep) by {
        forall j: nat | OccursAt(head, sep, j) ensures false {
          OccursAtPrefix(s, sep, i, j);
        }
      }
      [head] + Split(s[i + |sep|..], sep)
  }

  /** `parts.join(sep)`. */
  function Join(parts: seq<string>, sep: string): string {
    if |parts| == 0 then ""
    else if |parts| == 1 then parts[0]
    else parts[0] + sep + Join(parts[1..], sep)
  }

  lemma JoinCons(head: string, tail: seq<string>, sep: string)
    requires |tail| >= 1
    ensures Join([head] + tail, sep) == head + sep + Join(tail, sep)
  {
    assert ([head] + tail)[1..] == tail;
  }

  /** Joining two non-empty lists is joining each and putting one separator between. */
  lemma {:induction false} JoinAppend(a: seq<string>, b: seq<string>, sep: string)
    requires |a| >= 1 && |b| >= 1
    ensures Join(a + b, sep) == Join(a, sep) + sep + Join(b, sep)
    decreases |a|
  {
    if |a| == 1 {
      JoinCons(a[0], b, sep);
      assert a + b == [a[0]] + b;
    } else {
      JoinAppend(a[1..], b, sep);
      assert a + b == [a[0]] + (a[1..] + b);
      JoinCons(a[0], a[1..] + b, sep);
      JoinCons(a[0], a[1..], sep);
      assert a == [a[0]] + a[1..];
    }
  }

  /** Splitting and joining back with the same separator gives the string back. */
  lemma {:induction false} JoinSplit(s: string, sep: string)
    requires |sep| > 0
    ensures Join(Split(s, sep), sep) == s
    decreases |s|
  {
    match FindFrom(s, sep, 0)
    case None =>
    case Some(i) =>
      var rest := s[i + |sep|..];
      assert s == s[..i] + s[i..i + |sep|] + rest;
      JoinSplit(rest, sep);
      JoinCons(s[..i], Split(rest, sep), sep);
  }

  /** A separator with none before it ends the first piece. */
  lemma SplitAt(a: string, sep: string, b: string)
    requires |sep| > 0
    requires forall j: nat :: j < |a| ==> !OccursAt(a + sep, sep, j)
    ensures Split(a + sep + b, sep) == [a] + Split(b, sep)
  {
    var s := a + sep + b;
    FirstOccurrence(a, sep, b);
    assert s[..|a|] == a && s[|a| + |sep|..] == b;
  }

  /** A piece without a one-character separator holds no occurrence of it before
      the separator that follows. */
  lemma PieceClean(head: string, sep: string)
    requires |sep| == 1 && !Contains(head, sep)
    ensures forall j: nat :: j < |head| ==> !OccursAt(head + sep, sep, j)
  {
    forall j: nat | j < |head| ensures !OccursAt(head + sep, sep, j) {
      assert !OccursAt(head, sep, j);
      assert (head + sep)[j..j + 1] == head[j..j + 1];
    }
  }

  /** Joining pieces that hold no one-character separator and splitting the result
      on it gives the pieces back. */
  lemma {:induction false} SplitJoin(parts: seq<string>, sep: string)
    requires |parts| >= 1 && |sep| == 1
    requires forall i :: 0 <= i < |parts| ==> !Contains(parts[i], sep)
    ensures Split(Join(parts, sep), sep) == parts
    decreases |parts|
  {
    var head := parts[0];
    if |parts| == 1 {
      assert FindFrom(head, sep, 0).None?;
    } else {
      var rest := parts[1..];
      PieceClean(head, sep);
      SplitAt(head, sep, Join(rest, sep));
      SplitJoin(rest, sep);
      assert parts == [head] + rest;
    }
  }

  // ---------------------------------------------------------------------------
  // replace

  /** `s.replace(/pat/g, rep)` for a pattern that matches only the literal text
      `pat`: the leftmost occurrence is replaced and the search resumes after it, so
      occurrences are replaced left to right and never overlap. */
  function ReplaceAll(s: string, pat: string, rep: string): string
    requires |pat| > 0
    decreases |s|
  {
    match FindFrom(s, pat, 0)
    case None => s
    case Some(i) => s[..i] + rep + ReplaceAll(s[i + |pat|..], pat, rep)
  }

  /** Global replacement is the split on `pat` joined back with `rep`: every
      occurrence, leftmost first and without overlap, is replaced, and nothing else. */
  lemma {:induction false} ReplaceAllIsJoin(s: string, pat: string, rep: string)
    requires |pat| > 0
    ensures ReplaceAll(s, pat, rep) == Join(Split(s, pat), rep)
    decreases |s|
  {
    match FindFrom(s, pat, 0)
    case None =>
    case Some(i) =>
      var rest := s[i + |pat|..];
      assert Split(s, pat) == [s[..i]] + Split(rest, pat);
      ReplaceAllIsJoin(rest, pat, rep);
      JoinCons(s[..i], Split(rest, pat), rep);
  }

  /** An occurrence with none before it is replaced, and the search carries on
      after it. */
  lemma ReplaceAllAt(a: string, pat: string, b: string, rep: string)
    requires |pat| > 0
    requires forall j: nat :: j < |a| ==> !OccursAt(a + pat, pat, j)
    ensures ReplaceAll(a + pat + b, pat, rep) == a + rep + ReplaceAll(b, pat, rep)
  {
    var s := a + pat + b;
    FirstOccurrence(a, pat, b);
    assert s[..|a|] == a && s[|a| + |pat|..] == b;
  }

  lemma EmptyPrefix(s: string)
    ensures [] + s == s
  {
  }

  /** A text that starts with the pattern has that occurrence replaced first. */
  lemma ReplaceAllHead(pat: string, b: string, rep: string)
    requires |pat| > 0
    ensures ReplaceAll(pat + b, pat, rep) == rep + ReplaceAll(b, pat, rep)
  {
    ReplaceAllAt([], pat, b, rep);
    EmptyPrefix(pat);
    EmptyPrefix(rep);
  }

  /** In `a + pat + b`, with no occurrence starting inside `a`, the search finds
      the `pat` that follows `a`. */
  lemma FirstOccurrence(a: string, pat: string, b: string)
    requires forall j: nat :: j < |a| ==> !OccursAt(a + pat, pat, j)
    ensures FindFrom(a + pat + b, pat, 0) == Some(|a|)
  {
    var s := a + pat + b;
    assert s[..|a| + |pat|] == a + pat;
    forall j: nat | j < |a| ensures !OccursAt(s, pat, j) {
      OccursAtPrefix(s, pat, |a| + |pat|, j);
    }
    assert OccursAt(s, pat, |a|) by { assert s[|a|..|a| + |pat|] == pat; }
    FindFromFirst(s, pat, 0, |a|);
  }

  lemma OccursAtAppend(a: string, b: string, p: string, j: nat)
    ensures OccursAt(a + b, p, |a| + j) <==> OccursAt(b, p, j)
  {
    if j + |p| <= |b| {
      assert (a + b)[|a| + j..|a| + j + |p|] == b[j..j + |p|];
    }
  }

  lemma Regroup(a: string, b: string, c: string, d: string)
    ensures a + (b + c + d) == a + b + c + d
  {
  }

  /** No occurrence starting in `pre` when there is none in `a + pre`. */
  lemma SkipAtPre(a: string, pre: string, pat: string)
    requires forall j: nat :: j < |a| + |pre| ==> !OccursAt(a + pre + pat, pat, j)
    ensures forall j: nat :: j < |pre| ==> !OccursAt(pre + pat, pat, j)
  {
    forall j: nat | j < |pre| ensures !OccursAt(pre + pat, pat, j) {
      assert a + pre + pat == a + (pre + pat);
      OccursAtAppend(a, pre + pat, pat, j);
    }
  }

  /** With no occurrence before `a + pre` ends, the replacement keeps `a` and goes
      on as it would in what follows. */
  lemma SkipAt(a: string, pre: string, pat: string, rest: string, rep: string)
    requires |pat| > 0
    requires forall j: nat :: j < |a| + |pre| ==> !OccursAt(a + pre + pat, pat, j)
    ensures ReplaceAll(a + (pre + pat + rest), pat, rep) == a + ReplaceAll(pre + pat + rest, pat, rep)
  {
    SkipAtPre(a, pre, pat);
    ReplaceAllAt(pre, pat, rest, rep);
    ReplaceAllAt(a + pre, pat, rest, rep);
    Regroup(a, pre, pat, rest);
    Regroup(a, pre, rep, ReplaceAll(rest, pat, rep));
  }

  /** With no occurrence at all, nothing is replaced, before `b` or in it. */
  lemma SkipNone(a: string, b: string, pat: string, rep: string)
    requires |pat| > 0 && FindFrom(b, pat, 0).None?
    requires forall j: nat :: j < |a| ==> !OccursAt(a + b, pat, j)
    ensures ReplaceAll(a + b, pat, rep) == a + ReplaceAll(b, pat, rep)
  {
    forall j: nat | j <= |a + b| ensures !OccursAt(a + b, pat, j) {
      if j >= |a| {
        OccursAtAppend(a, b, pat, j - |a|);
      }
    }
    ReplaceAllAbsent(b, pat, rep);
    ReplaceAllAbsent(a + b, pat, rep);
  }

  /** No occurrence starts in `a` or before the first one of `b`. */
  lemma SkipReady(a: string, b: string, pat: string, k: nat)
    requires FindFrom(b, pat, 0) == Some(k)
    requires forall j: nat :: j < |a| ==> !OccursAt(a + b, pat, j)
    ensures forall j: nat :: j < |a| + k ==> !OccursAt(a + b[..k] + pat, pat, j)
  {
    var n := |a| + k + |pat|;
    assert (a + b)[..n] == a + b[..k] + pat;
    forall j: nat | j < |a| + k ensures !OccursAt(a + b[..k] + pat, pat, j) {
      if j >= |a| {
        OccursAtAppend(a, b, pat, j - |a|);
      }
      OccursAtPrefix(a + b, pat, n, j);
    }
  }

  /** A prefix in which no occurrence starts is kept as it is, and the replacement
      goes on in what follows it. */
  lemma ReplaceAllSkip(a: string, b: string, pat: string, rep: string)
    requires |pat| > 0
    requires forall j: nat :: j < |a| ==> !OccursAt(a + b, pat, j)
    ensures ReplaceAll(a + b, pat, rep) == a + ReplaceAll(b, pat, rep)
  {
    var found := FindFrom(b, pat, 0);
    if found.None? {
      SkipNone(a, b, pat, rep);
    } else {
      var k := found.value;
      SkipReady(a, b, pat, k);
      assert b == b[..k] + pat + b[k + |pat|..];
      SkipAt(a, b[..k], pat, b[k + |pat|..], rep);
    }
  }

  /** A string without the pattern is left unchanged by global replacement. */
  lemma ReplaceAllAbsent(s: string, pat: string, rep: string)
    requires |pat| > 0 && !Contains(s, pat)
    ensures ReplaceAll(s, pat, rep) == s
  {
  }

  /** `s.replace(pat, rep)` with a string pattern: only the first occurrence. */
  function ReplaceFirst(s: string, pat: string, rep: string): string
    requires |pat| > 0
  {
    match FindFrom(s, pat, 0)
    case None => s
    case Some(i) => s[..i] + rep + s[i + |pat|..]
  }

  /** Only the first occurrence is replaced: whatever follows it, including further
      occurrences of the pattern, is kept as it was. */
  lemma ReplaceFirstAt(a: string, pat: string, b: string, rep: string)
    requires |pat| > 0
    requires forall j: nat :: j < |a| ==> !OccursAt(a + pat, pat, j)
    ensures ReplaceFirst(a + pat + b, pat, rep) == a + rep + b
  {
    var s := a + pat + b;
    FirstOccurrence(a, pat, b);
    assert s[..|a|] == a && s[|a| + |pat|..] == b;
  }

  /** A string without the pattern is left unchanged by first-only replacement. */
  lemma ReplaceFirstAbsent(s: string, pat: string, rep: string)
    requires |pat| > 0 && !Contains(s, pat)
    ensures ReplaceFirst(s, pat, rep) == s
  {
  }
}

=== FILE: wrappers.dfy ===
/** Failure-carrying values used across the model: an absent value, and a pass/fail
    outcome for steps that produce nothing. */
module Wrappers {

  datatype Option<+T> = None | Some(value: T)

  datatype Outcome<+E> = Pass | Fail(error: E)
}
